=== FILE: README.md ===
# cleanup.pictures — a Dafny model of the editor, the gateway and the claim reconciliation

cleanup.pictures lets a user paint over part of a photo and have an
inpainting service redraw the painted area. This project models the logic
around that loop and proves properties of it. Every operation is a pure
function on immutable data; the outside world enters as parameters.

- **Editor history** (`history.dfy`, `drawing.dfy`, `compositor.dfy`, `render.dfy`).
  The history is two flat sequences: the brush strokes (`lines`) and the
  images returned by the service (`renders`). The model covers:
  - the reset on file change, `addLine`, `undo`, and what a successful or failed `render` does;
  - what `draw` paints and which lines `drawLines` strokes;
  - the mask rebuilt before each render;
  - the high-definition compositor, with pixels kept abstract;
  - the `_cleanup` rename on download.
- **Stroke capture** (`strokes.dfy`, `viewport.dfy`, `session.dfy`). The mouse
  and touch handlers act as transitions on the history, followed by the
  Cmd/Ctrl+Z shortcut and the zoom arithmetic (over `real`). The count
  invariant is proved over whole replayed sessions.
- **Client request** (`inpainting.dfy`, `http.dfy`). This is the form and the
  headers that `inpaint` sends. The server reads header fields as Node.js
  does: names match up to ASCII case, a fixed set of names keeps its first
  field, and repeated fields of any other name are joined.
- **Server gate** (`gateway.dfy`). This is the middleware chain of the cloud
  function, as a pure decision: reject with a status, or forward to the
  standard or HD endpoint. It includes the round trip of the `Bearer` header
  between client and server.
- **Mode policy** (`app.dfy`). This covers the HD flag, the resize bound, the
  upgrade modal and leaving the editor.
- **Subscription reconciliation** (`subscriptions.dfy`). This is the
  maintenance script that clears stale pro claims:
  - the ignore list, with a round trip;
  - the per-status tally, whose counts add up to the number of rows;
  - the claim revocation, proved equal to a reference definition.
- **Shared pieces.** `wrappers.dfy` holds `Option`, `Result` and JavaScript
  truthiness. `text.dfy` holds JavaScript's `indexOf` and `split` and a
  split/join round trip.

The editing surface (src/EditorUI.tsx) reads a batch-structured `edits`
array that the editor context does not provide. Here the context's flat
history is followed instead:
- the current edit's lines are `lines`;
- the number of edits is one more than the number of renders.

`render` never passes an auth token to `inpaint`. `Orchestrator.RenderSendsNoAuthorization`
and `Gateway.RenderRequestsAreRefused` prove the consequence: the gate
refuses every such request with 403. This is stated as a property rather
than a finding, because the endpoint variable may name a different service.

## Model

| member | source | states |
|---|---|---|
| EditorHistory.Reset | src/context/EditorContext.tsx:117-120 | A file change leaves exactly one blank line and no render, so the history is balanced and open. |
| EditorHistory.AddLine | src/context/EditorContext.tsx:269-272 | Appends exactly one blank line. Earlier lines and the renders are unchanged, and well-formedness is kept. |
| EditorHistory.Commit | src/context/EditorContext.tsx:249-253 | A successful render appends exactly the new image and one blank line. Everything earlier is kept, and balance is preserved. |
| EditorHistory.Pop | src/context/EditorContext.tsx:122-130 | `pop` n times leaves the longest prefix of length `|s|-n`. An empty array stays empty. |
| EditorHistory.Undo | src/context/EditorContext.tsx:122-130 | Drops two lines (or as many as there are) and adds a blank one. Drops the last render, if any. Balance and well-formedness are preserved. |
| EditorHistory.SetCurrent | src/EditorUI.tsx:141-142 | Changing the current line leaves every other line and all renders unchanged. |
| EditorHistory.UndoFreshIsNoop | src/context/EditorContext.tsx:117-130 | Undo on a freshly loaded file changes nothing. |
| EditorHistory.UndoRevertsCycle | src/context/EditorContext.tsx:122-130 | Undo is the inverse of "draw a stroke on the open line, then render". |
| EditorHistory.UndoAfterAddLine | src/context/EditorContext.tsx:122-130 | Undo after `addLine` removes the new line, blanks the stroke before it, and drops a render. |
| Drawing.Stroked | src/context/EditorContext.tsx:64-73 | `drawLines` strokes exactly the lines that have a point and a non-zero size, and nothing else. |
| Drawing.StrokedAppend | src/context/EditorContext.tsx:64-73 | Stroking a concatenation strokes each part in order. |
| Drawing.StrokedAll | src/context/EditorContext.tsx:64-73 | When every line is strokable, nothing is skipped. |
| Drawing.LastOnly | src/context/EditorContext.tsx:147-148 | The single-line list holds the last line, when there is one, and is empty on an empty history. |
| Drawing.Draw | src/context/EditorContext.tsx:134-149 | Nothing is painted without a context or an image. The base is the last render exactly when it has a `src`. All lines are stroked in HD without `noLine`. Otherwise exactly the strokes of the last line are drawn: the current line when it has a point and a non-zero size, and nothing else. |
| Drawing.RefreshCanvasMask | src/context/EditorContext.tsx:154-165 | Throws "canvas has invalid size" exactly when a canvas dimension is 0. Otherwise the mask takes the canvas size and strokes exactly the lines `drawLines` strokes, in their order: the lines that have a point and a non-zero size. |
| Drawing.MaskIsCumulative | src/context/EditorContext.tsx:154-165 | A later mask in the session strokes the earlier mask's lines first, in the same order. |
| Compositor.SourceIn | src/context/EditorContext.tsx:181-196 | The patch is the size of the original. It holds the working pixel wherever the mask is set and is clear everywhere else. |
| Compositor.Over | src/context/EditorContext.tsx:206-207 | Drawing the patch over the original keeps the original wherever the patch is clear and shows the patch wherever it is painted. |
| Compositor.RenderOutput | src/context/EditorContext.tsx:167-209 | Yields nothing when the file, the loaded original or the canvas is missing. Otherwise each pixel is the working pixel where the mask is set and painted, and the original pixel elsewhere. |
| Compositor.OutsideMaskIsOriginal | src/context/EditorContext.tsx:173-208 | Outside the mask, the HD export equals the original. |
| Compositor.CompositeRecoversWorking | src/context/EditorContext.tsx:173-208 | If the working raster is painted under the mask and equals the original elsewhere, the export is exactly the working raster. |
| Compositor.TrailingRun | src/context/EditorContext.tsx:221 | Counts the longest run of `[\w\d_-]` characters at the end of the name. |
| Compositor.ExtensionStart | src/context/EditorContext.tsx:221 | Finds where `(\.[\w\d_-]+)$` matches, or reports that it matches nowhere. |
| Compositor.Rename | src/context/EditorContext.tsx:221 | `_cleanup` is inserted right before the matched extension. A name the pattern does not match is returned unchanged. |
| Compositor.ExtensionIsLastDot | src/context/EditorContext.tsx:221 | The matched extension starts at the last dot of the name. |
| Compositor.RenameKeepsExtension | src/context/EditorContext.tsx:221 | The renamed file keeps the same prefix and the same extension, right after the suffix. |
| Compositor.RenameLastSegment | src/context/EditorContext.tsx:221 | Only the last dot-segment gets the suffix: `base.ext` becomes `base_cleanup.ext`, whatever dots `base` holds. |
| Compositor.RenameWithoutDot | src/context/EditorContext.tsx:221 | A name without a dot is unchanged. |
| Compositor.Download | src/context/EditorContext.tsx:211-221 | Skips without a file or a context. In HD it fails with "could not get canvas data" when the compositor yields nothing. The export is the HD composite, or the working canvas otherwise, under the renamed name and the file's type. |
| Compositor.DownloadModesAgree | src/context/EditorContext.tsx:167-221 | When the working raster is painted under the mask and equals the original elsewhere, the HD and the standard download export the same image. |
| Orchestrator.Render | src/context/EditorContext.tsx:230-267 | Throws exactly on a zero-sized canvas. Succeeds exactly when every outside call does, and then commits the decoded image. Any caught failure leaves the history unchanged and reports the message. |
| Orchestrator.DrawShowsNewRender | src/context/EditorContext.tsx:138-143 | After a successful render, `draw` paints the new image, because its object URL is never empty. |
| Orchestrator.RenderSendsNoAuthorization | src/context/EditorContext.tsx:242 | `render`'s request carries the app-check token and no authorization header. |
| Strokes.EffectiveScale | src/EditorUI.tsx:54 | The scale used in the handlers is never 0. It is the viewport's scale whenever that scale is non-zero. |
| Strokes.TouchPoint | src/EditorUI.tsx:196-198 | A touch maps to canvas coordinates whose product with the scale is the offset from the canvas box. |
| Strokes.PointerDown | src/EditorUI.tsx:137-146 | Without an image `src`, nothing changes. Otherwise the current line gets the brush size and one more point. No other line or render changes. |
| Strokes.Drag | src/EditorUI.tsx:150-159 | Appends exactly one point to the current line. Its size, the other lines and the renders are unchanged. |
| Strokes.PointerUp | src/EditorUI.tsx:161-174 | Nothing happens without an image `src` or a file. HD mode calls `addLine`. Otherwise `render` runs between raising and lowering the loading flag. The flag stays raised exactly when `render` throws, and the thrown message is passed on. A caught failure shows its message and leaves the history as `render` left it. A success takes `render`'s new history and shows nothing. |
| Strokes.OnKeyDown | src/EditorUI.tsx:239-248 | Only Cmd/Ctrl+Z acts, and on a non-empty history it is exactly `undo`. |
| Strokes.CmdZOnFreshFile | src/EditorUI.tsx:239-248 | On a freshly loaded file the shortcut changes nothing. |
| Viewport.MinScale | src/EditorUI.tsx:110-119 | The minimum zoom is `min(1, rW, rH)`, where `rH` leaves room for the 180-pixel toolbar. It is 1 exactly when the image fits. |
| Viewport.ResetZoom | src/EditorUI.tsx:57-69 | Nothing happens without a minimum scale or an image, and it throws without a viewport. Otherwise it centres the image: `2*offset + size*scale` equals the window size on both axes. |
| Session.Apply | src/context/EditorContext.tsx:117-272 | Every event keeps the history well-formed. Every event except an HD release keeps it balanced. |
| Session.Replay | src/context/EditorContext.tsx:117-272 | Any sequence of events keeps the line list non-empty and well-formed, and balanced when no HD release occurs. |
| Session.Reachable | src/context/EditorContext.tsx:84-130 | Every history reachable from the initial state is well-formed, and balanced without HD releases. |
| Session.CycleExtends | src/context/EditorContext.tsx:249-253 | One stroke-and-render cycle appends the stroke and the image before the blank line. |
| Session.UndoUnwindsCycles | src/context/EditorContext.tsx:122-130 | N undos after N rendered strokes give back the freshly loaded history. |
| Session.HdStrokes | src/EditorUI.tsx:161-174 | In HD mode, K strokes add exactly K lines and no render; no stroke leaves the history as it was. The strokes take the place of the open line, in order, followed by a new blank line, and the earlier lines are kept. Each stroke is a whole gesture; `Session.HdSessionReplay` ties it to the replayed events. |
| Session.ReplayAppend | src/context/EditorContext.tsx:117-272 | Replaying two event sequences one after the other is replaying their concatenation. |
| Session.DragsExtendCurrent | src/EditorUI.tsx:150-159 | A run of drags extends the current line by exactly their points, in order, and changes nothing else. |
| Session.GestureReplay | src/EditorUI.tsx:137-174 | A press, its drags and a release in HD mode on an open history, with an image and a file present, is exactly one stroke of `HdStrokes`. |
| Session.HdSessionReplay | src/EditorUI.tsx:137-174 | Replaying the events of any sequence of HD gestures gives exactly `HdStrokes` of the gestures' lines. |
| Http.Header | functions/src/index.ts:32 | As a Node.js server reads it: no value exactly when no field's name matches up to ASCII case. For the names Node.js keeps once (among them `authorization`), the value is the first matching field's. For any other name, the value is the join of `Values`, which `Http.ValuesAppend` shows holds every matching value in order. |
| Http.HeaderAppend | functions/src/index.ts:32 | Adding fields to a list that already carries the name: a name kept once still reads its first value; a joined name reads the earlier value, the separator, then the added fields' value. |
| Http.Values | functions/src/index.ts:32 | The matching values are empty exactly when no field's name matches, and the first is the first matching field's value. A single field gives its value when its name matches and nothing otherwise. |
| Http.ValuesAppend | functions/src/index.ts:32 | The values of two lists of fields set one after the other are the first list's values followed by the second's; with the one-field case this keeps every matching value, in order. |
| Http.SameIffLower | functions/src/index.ts:32 | Two names match up to ASCII case exactly when their lower-case forms are equal. |
| Http.OnlyField | functions/src/index.ts:32 | When exactly one field carries the name, every kind of header reads as that field's value. |
| Http.HeaderNamesAgree | functions/src/index.ts:32 | Two names that select the same fields read the same value. |
| Text.FindFirst | functions/src/index.ts:36 | Returns the first index where the separator occurs, or none exactly when it occurs nowhere. |
| Text.Split | functions/src/index.ts:36 | Yields at least one piece, and no piece contains the separator. |
| Text.FirstPiece | functions/src/index.ts:36 | The first piece is the whole string, or the separator follows it. |
| Text.JoinAppend | functions/src/index.ts:32 | Joining two non-empty lists puts exactly one separator between their joins, as a repeated header's values are joined. |
| Text.JoinSplit | scripts/check-subscriptions/fix-all.js:14 | Splitting and re-joining on the same separator gives back the string. |
| Text.SplitJoin | scripts/check-subscriptions/fix-all.js:14-16 | For a one-character separator, splitting a join of separator-free pieces gives back the pieces. |
| Inpainting.RequestHeaders | src/adapters/inpainting.ts:24-30 | `X-Firebase-AppCheck` is present exactly when the app-check token is truthy, and equals it. `Authorization` is present exactly when the auth token is truthy, and is `Bearer ` plus the token. No other header is set, and each is set at most once: there is one field per truthy token. In particular there is no `X-HD`. |
| Inpainting.BuildRequest | src/adapters/inpainting.ts:16-30 | Fails with the missing-variable message exactly when the endpoint variable is falsy. Otherwise the form is `image_file` and `mask_file`, with the headers above. |
| Inpainting.ObjectUrl | src/adapters/inpainting.ts:39 | An object URL is never empty. |
| Inpainting.Inpaint | src/adapters/inpainting.ts:10-40 | Without the endpoint it throws before sending. A network failure is the error. Any response, whatever its status, becomes an object URL of its body. |
| Gateway.SplitAfterPrefix | functions/src/index.ts:36 | A header that starts with `Bearer ` splits into at least two pieces. The second is the first piece of the remainder. |
| Gateway.SecondPiece | functions/src/index.ts:36 | The token runs from the end of `Bearer ` to the next `Bearer ` or to the end of the header. |
| Gateway.BearerToken | functions/src/index.ts:32-36 | A token is read exactly when the header starts with `Bearer `. The token never contains `Bearer `, and the header is `Bearer ` plus the token, possibly followed by another `Bearer `. |
| Gateway.BearerRoundTrip | functions/src/index.ts:33-36 | The server reads back exactly the token the client sent as `Bearer ${authToken}`, provided the token does not contain `Bearer `. |
| Gateway.CheckAuthToken | functions/src/index.ts:27-52 | Yields 403 "Unauthorized" without a bearer header or when verification fails. Otherwise it continues, and the caller is pro exactly when `stripeRole` is `pro`. |
| Gateway.AppCheckAsWritten | functions/src/index.ts:54-74 | As written: a missing token continues, and only a synchronous throw yields 401. |
| Gateway.AppCheckVerification | functions/src/index.ts:59-73 | Corrected: a missing token continues, and any failed verification of a supplied token yields 401. |
| Gateway.AppCheckRejectionEscapes | functions/src/index.ts:66-73 | A token whose verification rejects later passes the as-written check but is refused by the corrected one. |
| Gateway.CheckHdAccess | functions/src/index.ts:76-88 | HD is requested exactly when `X-HD` is `true`, and is refused with 403 "HD is forbidden for free users" to callers who are not pro. |
| Gateway.Gate | functions/src/index.ts:90-114 | The stages run in order and the first rejection decides the response. A request is forwarded exactly when all three stages pass, to the HD endpoint with `refiner=pyramid` exactly when HD was requested. The app-check stage is the corrected one (see Findings), which also refuses a token whose verification rejects later. |
| Gateway.HdForwardNeedsPro | functions/src/index.ts:27-114 | A request reaches the HD endpoint exactly when its bearer token verifies with the `pro` role, any app-check token passes, and `X-HD` reads `true`. |
| Gateway.ResponseOutcomes | functions/src/index.ts:27-126 | An admitted request whose body lacks the image or the mask file gets no response. Every response sent is 200 with the upstream image, 401 or 403 from the gate, or 500. The image is served exactly for an admitted request whose upstream call returned 2xx. |
| Gateway.RepeatedHdHeaderIsNotHd | functions/src/index.ts:81 | Two `X-HD: true` fields read as `true, true`, so the request is not treated as HD. |
| Gateway.Respond | functions/src/index.ts:115-126 | An upstream 2xx returns its body as `image/png`. Any upstream failure gives 500 "Internal server error". A rejection keeps its status. |
| Gateway.FindFile | functions/src/index.ts:99-105 | The index of the first uploaded file sent under the field name, and none exactly when no file carries it. |
| Gateway.UpstreamForm | functions/src/index.ts:98-113 | The forwarded form is the first image file as `image.png` and the first mask file as `mask.png`, each with its uploaded type, then `refiner` when one is set. It is missing exactly when either file is missing, because reading `.buffer` of `undefined` throws. |
| Gateway.Handle | functions/src/index.ts:90-126 | A rejected request gets its status and message. An admitted request without both files gets no response, since Express 4 does not catch the async handler's TypeError. Otherwise the upstream outcome of the forwarded form decides the response. |
| Gateway.ClientFormReachesUpstream | functions/src/index.ts:98-109 | The form `inpaint` builds (src/adapters/inpainting.ts), once parsed, has both files: the handler forwards the user's image and the mask, and every request it builds is answered. |
| Gateway.ClientTokenReachesVerification | functions/src/index.ts:32-41 | A request built by the client with an auth token is judged by verifying exactly that token. |
| Gateway.AuthorizationLookup | functions/src/index.ts:32 | On client-built headers, the server's lower-case lookup finds the client's `Authorization` field. |
| Gateway.AuthorizationNamesMatch | functions/src/index.ts:32 | `Authorization` and `authorization` name the same header. |
| Gateway.ClientNeverGetsHd | functions/src/index.ts:81 | Whatever the browser sends is, if forwarded at all, forwarded to the standard endpoint without a refiner. |
| Gateway.RenderRequestsAreRefused | functions/src/index.ts:32-51 | A request without an auth token is always refused with 403. |
| AppShell.IsPro | src/App.tsx:20 | Having no user counts as not pro. |
| AppShell.Init | src/App.tsx:13-20 | Starts without files. HD is on exactly for a pro user. The upgrade modal shows exactly when the `upgrade` parameter is present. |
| AppShell.UserChanged | src/App.tsx:22-30 | Whenever the user changes, HD follows whether they are pro, and nothing else changes. |
| AppShell.OnFileChange | src/App.tsx:53-69 | Fails without Firebase. Otherwise it resizes the chosen file to at most 1920 pixels in HD and 720 otherwise. |
| AppShell.ToggleHd | src/App.tsx:84-100 | A user who is not pro only gets the upgrade modal. A pro user gets the requested mode even without confirming. The file is re-derived from the original, at the new bound, exactly when there is one and the user confirms. |
| AppShell.OnBack | src/App.tsx:101-105 | Clears both files and keeps the mode and the modal flag. |
| AppShell.FreeUserStaysSd | src/App.tsx:84-99 | A user who is not pro can never turn HD on through the toggle. |
| AppShell.RederiveMatchesMode | src/App.tsx:53-96 | A re-derived file is resized to the bound of the mode the toggle puts in force, as a newly chosen file would be in that mode. |
| AppShell.FreeSessionStaysSd | src/App.tsx:20-105 | From a state with HD off, no sequence of user changes, file choices, toggles, back clicks and modal closes by users who are never pro turns HD on. |
| AppShell.FreeUserSession | src/App.tsx:13-105 | From start-up, a session of a user who is never pro stays in standard definition throughout. |
| Subscriptions.ParseIgnore | scripts/check-subscriptions/fix-all.js:12-16 | Gives one id per line after the header. Each id is a prefix of its line and contains no comma. It is either the whole line or followed in it by a comma, so it is exactly the line's first comma-separated field. |
| Subscriptions.FirstField | scripts/check-subscriptions/fix-all.js:16 | The first field of `id,rest` is `id` when `id` has no comma. |
| Subscriptions.ParseIgnoreRoundTrip | scripts/check-subscriptions/fix-all.js:12-16 | Parsing a file written as a header plus one `id,rest` line per user gives back exactly the ids, in order. |
| Subscriptions.ExportArgument | scripts/check-subscriptions/fix-all.js:18-23 | Fails exactly when the export argument is missing or empty. |
| Subscriptions.Ingest | scripts/check-subscriptions/fix-all.js:25-42 | Every row is queued, in file order. `stats` holds exactly the statuses that occur, each with its row count. |
| Subscriptions.Statuses | scripts/check-subscriptions/fix-all.js:35-39 | Lists each status that occurs, exactly once. |
| Subscriptions.TallyAddsUp | scripts/check-subscriptions/fix-all.js:35-39 | The status counts add up to the number of rows. |
| Subscriptions.Step | scripts/check-subscriptions/fix-all.js:48-73 | Ignored users change nothing. An unknown user stops the loop. A pro claim with a status other than active or trialing is reported with exactly one line and cleared. If `setCustomUserClaims` rejects, the loop stops after the line is written, with the claim kept and the user not counted. Every other user looked at is counted. |
| Subscriptions.ClaimRefusalStopsLoop | scripts/check-subscriptions/fix-all.js:65-70 | A rejected claim update ends the loop with the report line written, the claim kept, the counter unchanged and the rest of the queue unvisited. |
| Subscriptions.Process | scripts/check-subscriptions/fix-all.js:46-74 | The loop never adds accounts and does nothing once stopped. A completed loop reports at most one line per counted user; a stopped one may have one line more, for the user whose claim update was rejected. |
| Subscriptions.StepMatchesReference | scripts/check-subscriptions/fix-all.js:48-73 | One step on an ignored customer, or on a known one whose claim update, if needed, succeeds, matches the reference for that customer. |
| Subscriptions.ProcessMatchesReference | scripts/check-subscriptions/fix-all.js:46-74 | On a queue of known, distinct customers whose claim updates succeed, the loop completes. It reports exactly the revoked customers, in order, and counts exactly the customers who are not ignored. |
| Subscriptions.ProcessAsWritten | scripts/check-subscriptions/fix-all.js:49 | As written, the loop stops at its first customer and reports nothing. |
| Subscriptions.AsWrittenRevokesNothing | scripts/check-subscriptions/fix-all.js:49 | For a stale pro customer, the corrected loop clears the claim and reports it; the loop as written does neither. |
| Subscriptions.Script | scripts/check-subscriptions/fix-all.js:8-75 | Exits with code 1 exactly when the export argument is missing. Otherwise it tallies every row and reconciles the queue against the parsed ignore list. On a clean queue the report and the count are exactly the reference's. The loop is the corrected one (see Findings): the ignore list is tested by membership, not by `ignore.has`. |
| Subscriptions.RepeatedCustomerReportedOnce | scripts/check-subscriptions/fix-all.js:46-74 | A customer queued twice is reported once, because the first visit clears the claim; the reference lists that customer twice. |

## Left out

- Rasterisation, image decoding and resampling are browser work and are left out. A stroke is kept as the line it strokes, and images are opaque ids with a `src`. Compositor.Download exports in the file's own type; a browser that cannot encode that type makes `toDataURL` fall back to `image/png`, which is not modelled.
- Network and Firebase are taken as parameters: `fetch`, `axios`, Firebase Auth, App Check, the Admin SDK, analytics, `alert` and `confirm`. Each outcome is one of the inputs; for `setCustomUserClaims` it is a field of the account.
- React hooks and listener attachment are left out, and `render` is taken as atomic. The async interleaving and the CSS-only loading guard are concurrency and presentation concerns.
- The "could not retrieve mask canvas" and "Could not get patch context" throws are left out. They fire only when the browser refuses a 2D context.
- The multipart body parser is foreign: the parsed files are a parameter of `Gateway.Handle`, which models the handler's own lookup of `image_file` and `mask_file`.
- Subscriptions.Step: `fs.appendFileSync` is taken to succeed. A failing local write would throw before the claim update and stop the loop without a line, which is not modelled.
- Gateway.Respond: a rejection's `TextBody(message)` is the argument passed to `next`, not the bytes the client receives. Express's default error handler is foreign: it shows that message only when NODE_ENV is not `production`, and otherwise sends the status text, such as "Forbidden" for 403 and "Unauthorized" for 401.
- Gateway.CheckAuthToken: `verifyIdToken` and `getUser` are folded into one outcome, because either failing leads to the same 403.
- Inpainting.Inpaint: the mask is taken already decoded, so a malformed data URL passed to `dataURItoBlob` is not modelled.
- Compositor.RenderOutput: the mask and working raster are taken already scaled to the original's size, because the scaled `drawImage` is a browser call.
- Viewport.MinScale: requires a non-zero natural size. With a zero size the source divides by zero and yields Infinity or NaN, which `real` cannot represent.
- Viewport.ResetZoom and Strokes.TouchPoint work over `real`, not IEEE doubles, so rounding is not modelled.
- Subscriptions.Ingest: `stats` is a map from status text to count. A status that names a property of `Object.prototype` (such as `constructor`) behaves differently in JavaScript, and that case is not modelled.
- Subscriptions.Script: a failure to read `ignore.csv` is not modelled, and neither are CSV parse errors, which are only logged. The export's rows are given already decoded.
- Subscriptions.ProcessMatchesReference: stated only for queues of known, distinct customers whose claim updates succeed. On a queue with an unknown customer, the loop stops at the first one, which `Subscriptions.Step` states. A rejected claim update stops it too, which `Subscriptions.ClaimRefusalStopsLoop` states. On a queue with a repeated customer, the loop clears the claim at the first visit and reports the customer once, while the reference would list them twice; `Subscriptions.RepeatedCustomerReportedOnce` states this.
- Subscriptions.Script: runs the corrected loop. The loop as written throws at its first customer (see Findings), which `Subscriptions.ProcessAsWritten` models.
- Gateway.Gate: runs the corrected app-check stage. The stage as written lets a token through when its verification rejects later (see Findings), which `Gateway.AppCheckAsWritten` models.
- Http.Header: a repeated `cookie` field is joined with `; `, and a repeated `set-cookie` field would be an array. No header the project reads is either, so the array case is not modelled. Express's `referer`/`referrer` aliasing is left out for the same reason.
- Cmd/Ctrl+Z is modelled on the flat history, because the `edits` array the handler reads is not provided by the editor context.

## Findings

| source | as written | input that shows it | evidently intended | confidence | as-written member | corrected member |
|---|---|---|---|---|---|---|
| scripts/check-subscriptions/fix-all.js:49 | `ignore.has(userId)` is called on the array built at lines 12-16. Arrays have no `has` method, so the first iteration throws a TypeError before any user is looked at. | An export with one row: a pro user with status `canceled`. | Skip the users listed in the ignore file (sequence membership) and reconcile the rest. | high; not executed | Subscriptions.AsWrittenRevokesNothing | Subscriptions.ProcessMatchesReference |
| functions/src/index.ts:67 | `verifyToken` is called without `await`. A token that the service rejects asynchronously never reaches the `catch`, so the request proceeds. | A request whose `X-Firebase-AppCheck` token is rejected by the asynchronous verification. | Refuse a supplied token that fails verification with 401. | high; not executed | Gateway.AppCheckRejectionEscapes | Gateway.AppCheckVerification |

=== FILE: app.dfy ===
/** The application shell's mode policy (src/App.tsx): the high-definition
    flag, the resize bound of a newly chosen file, the upgrade modal, and
    leaving the editor. */
module AppShell {
  import opened Wrappers
  import opened EditorHistory

  datatype AppState = AppState(file: Option<File>, originalFile: Option<File>, useHD: bool, showUpgrade: bool)

  /** `user?.isPro() || false`: no user counts as not pro. */
  function IsPro(user: Option<bool>): (pro: bool)
    ensures pro <==> user == Some(true)
  {
    user.Some? && user.value
  }

  /** The state on start-up: no file, HD iff the user is pro, and the
      upgrade modal shown iff the `upgrade` query parameter is present
      (even when empty). */
  function Init(upgradeParam: Option<string>, user: Option<bool>): (s: AppState)
    ensures s.file.None? && s.originalFile.None?
    ensures s.useHD <==> user == Some(true)
    ensures s.showUpgrade <==> upgradeParam.Some?
  {
    AppState(None, None, IsPro(user), upgradeParam.Some?)
  }

  /** Whenever the user changes, HD follows whether they are pro. */
  function UserChanged(s: AppState, user: Option<bool>): (r: AppState)
    ensures r.useHD <==> user == Some(true)
    ensures r.file == s.file && r.originalFile == s.originalFile && r.showUpgrade == s.showUpgrade
  {
    s.(useHD := IsPro(user))
  }

  /** The request to shrink a chosen file to a bounded largest dimension. */
  datatype ResizeRequest = ResizeRequest(file: File, maxDimension: nat)

  const HdMaxDimension: nat := 1920
  const SdMaxDimension: nat := 720

  /** `onFileChange`: resize to at most 1920 pixels in HD and 720 otherwise
      (the resized file then becomes the edited file). */
  function OnFileChange(hasFirebase: bool, f: File, hd: bool): (r: Result<ResizeRequest>)
    ensures r.Failure? <==> !hasFirebase
    ensures r.Success? ==> r.value.file == f
    ensures r.Success? ==> r.value.maxDimension == (if hd then HdMaxDimension else SdMaxDimension)
  {
    if !hasFirebase then Failure("No firebase")
    else Success(ResizeRequest(f, if hd then 1920 else 720))
  }

  /** What a click on the HD toggle does: the new state, and the original
      file to re-derive at the new bound, if any. */
  datatype ToggleEffect = ToggleEffect(state: AppState, rederive: Option<ResizeRequest>)

  /** The HD toggle: a user who is not pro only gets the upgrade modal; a pro
      user gets the requested mode, and when there is an original file and
      they confirm the reset, the edited file is re-derived from it. */
  function ToggleHd(s: AppState, value: bool, user: Option<bool>, confirmed: bool): (r: ToggleEffect)
    ensures !IsPro(user) ==> r.state == s.(showUpgrade := true) && r.rederive.None?
    ensures IsPro(user) ==> r.state == s.(useHD := value)
    ensures r.rederive.Some? <==> IsPro(user) && s.originalFile.Some? && confirmed
    ensures r.rederive.Some? ==> r.rederive.value.file == s.originalFile.value
    ensures r.rederive.Some? ==> r.rederive.value.maxDimension == (if value then HdMaxDimension else SdMaxDimension)
  {
    if IsPro(user) then
      var rederive := if s.originalFile.Some? && confirmed then Some(OnFileChange(true, s.originalFile.value, value).value) else None;
      ToggleEffect(s.(useHD := value), rederive)
    else ToggleEffect(s.(showUpgrade := true), None)
  }

  /** `onBack`: leaves the editor by forgetting both files. */
  function OnBack(s: AppState): (r: AppState)
    ensures r.file.None? && r.originalFile.None?
    ensures r.useHD == s.useHD && r.showUpgrade == s.showUpgrade
  {
    s.(file := None, originalFile := None)
  }

  /** A non-pro user can never switch HD on through the toggle. */
  lemma FreeUserStaysSd(s: AppState, user: Option<bool>, value: bool, confirmed: bool)
    requires !IsPro(user) && !s.useHD
    ensures !ToggleHd(s, value, user, confirmed).state.useHD
  {
  }

  /** A re-derived file is resized to the bound of the mode the toggle puts
      in force, exactly as a newly chosen file would be in that mode. */
  lemma RederiveMatchesMode(s: AppState, value: bool, user: Option<bool>, confirmed: bool)
    ensures var r := ToggleHd(s, value, user, confirmed);
            r.rederive.Some? ==> OnFileChange(true, s.originalFile.value, r.state.useHD) == Success(r.rederive.value)
  {
  }

  /** The shell's events: a change of signed-in user, a file chosen on the
      home page (kept as the original, with its resized copy edited), a
      click on the HD toggle, leaving the editor, and closing the upgrade
      modal. */
  datatype AppEvent =
    | UserChange(user: Option<bool>)
    | FileChosen(original: File, resized: File)
    | Toggle(value: bool, user: Option<bool>, confirmed: bool)
    | Back
    | CloseUpgrade

  function Step(s: AppState, e: AppEvent): AppState {
    match e
    case UserChange(u) => UserChanged(s, u)
    case FileChosen(f, resized) => s.(originalFile := Some(f), file := Some(resized))
    case Toggle(value, u, confirmed) => ToggleHd(s, value, u, confirmed).state
    case Back => OnBack(s)
    case CloseUpgrade => s.(showUpgrade := false)
  }

  /** The state after a sequence of events, in order. */
  function Run(s: AppState, events: seq<AppEvent>): AppState
    decreases |events|
  {
    if |events| == 0 then s else Run(Step(s, events[0]), events[1..])
  }

  /** Every user the events carry is not pro. */
  predicate NeverPro(events: seq<AppEvent>) {
    forall i :: 0 <= i < |events| ==> (events[i].UserChange? || events[i].Toggle?) ==> !IsPro(events[i].user)
  }

  /** A user who is not pro never has HD on, whatever they do. */
  lemma {:induction false} FreeSessionStaysSd(s: AppState, events: seq<AppEvent>)
    requires !s.useHD && NeverPro(events)
    ensures !Run(s, events).useHD
    decreases |events|
  {
    if |events| > 0 {
      assert NeverPro(events[1..]) by {
        forall i | 0 <= i < |events[1..]|
          ensures (events[1..][i].UserChange? || events[1..][i].Toggle?) ==> !IsPro(events[1..][i].user)
        {
          assert events[1..][i] == events[i + 1];
        }
      }
      FreeSessionStaysSd(Step(s, events[0]), events[1..]);
    }
  }

  /** From start-up, a session of a user who is never pro stays in standard
      definition throughout. */
  lemma FreeUserSession(upgradeParam: Option<string>, user: Option<bool>, events: seq<AppEvent>)
    requires !IsPro(user) && NeverPro(events)
    ensures !Run(Init(upgradeParam, user), events).useHD
  {
    FreeSessionStaysSd(Init(upgradeParam, user), events);
  }
}

=== FILE: compositor.dfy ===
/** Export of the edited image (src/context/EditorContext.tsx): the
    high-definition compositor `renderOutput`, the `_cleanup` rename and
    `download`. Pixels are kept abstract: a pixel is clear or painted with
    some colour, and a mask pixel is set or not. */
module Compositor {
  import opened Wrappers
  import opened EditorHistory

  datatype Px = Clear | Paint(rgba: nat)

  /** A raster, row by row. */
  type Grid = seq<seq<Px>>

  /** A binary mask, row by row: `true` where a stroke was drawn. */
  type Stencil = seq<seq<bool>>

  predicate Sized<T>(g: seq<seq<T>>, w: nat, h: nat) {
    |g| == h && forall y :: 0 <= y < h ==> |g[y]| == w
  }

  /** The full-resolution original image. */
  datatype Original = Original(width: nat, height: nat, pixels: Grid)

  /** Drawing the mask and then the working raster with `source-in`: the
      working pixel where the mask is set, clear elsewhere. */
  function SourceIn(mask: Stencil, working: Grid, w: nat, h: nat): (patch: Grid)
    requires Sized(mask, w, h) && Sized(working, w, h)
    ensures Sized(patch, w, h)
    ensures forall y, x :: 0 <= y < h && 0 <= x < w && mask[y][x] ==> patch[y][x] == working[y][x]
    ensures forall y, x :: 0 <= y < h && 0 <= x < w && !mask[y][x] ==> patch[y][x] == Clear
  {
    seq(h, y requires 0 <= y < h => seq(w, x requires 0 <= x < w => if mask[y][x] then working[y][x] else Clear))
  }

  /** Drawing `top` over `bottom`: clear pixels of `top` let `bottom` show. */
  function Over(bottom: Grid, top: Grid, w: nat, h: nat): (out: Grid)
    requires Sized(bottom, w, h) && Sized(top, w, h)
    ensures Sized(out, w, h)
    ensures forall y, x :: 0 <= y < h && 0 <= x < w && top[y][x] == Clear ==> out[y][x] == bottom[y][x]
    ensures forall y, x :: 0 <= y < h && 0 <= x < w && top[y][x] != Clear ==> out[y][x] == top[y][x]
  {
    seq(h, y requires 0 <= y < h => seq(w, x requires 0 <= x < w => if top[y][x] == Clear then bottom[y][x] else top[y][x]))
  }

  /** `renderOutput`: nothing without a file, a loaded original or a working
      canvas; otherwise an image the size of the original that takes the
      working pixel where the mask is set (and the working pixel is painted)
      and the original pixel everywhere else. The mask and working raster
      are given already scaled to the original's size. */
  function RenderOutput(hasFile: bool, original: Option<Original>, originalLoaded: bool, hasCanvas: bool,
                        working: Grid, mask: Stencil): (r: Option<Grid>)
    requires original.Some? ==>
      var o := original.value;
      Sized(o.pixels, o.width, o.height) && Sized(working, o.width, o.height) && Sized(mask, o.width, o.height)
    ensures r.None? <==> !hasFile || original.None? || !originalLoaded || !hasCanvas
    ensures r.Some? ==> Sized(r.value, original.value.width, original.value.height)
    ensures r.Some? ==> forall y, x :: 0 <= y < original.value.height && 0 <= x < original.value.width ==>
      r.value[y][x] == if mask[y][x] && working[y][x] != Clear then working[y][x] else original.value.pixels[y][x]
  {
    if !hasFile || original.None? || !originalLoaded || !hasCanvas then None
    else
      var o := original.value;
      var patch := SourceIn(mask, working, o.width, o.height);
      Some(Over(o.pixels, patch, o.width, o.height))
  }

  /** Outside the mask the export is bit-identical to the original. */
  lemma OutsideMaskIsOriginal(o: Original, working: Grid, mask: Stencil, y: nat, x: nat)
    requires Sized(o.pixels, o.width, o.height) && Sized(working, o.width, o.height) && Sized(mask, o.width, o.height)
    requires y < o.height && x < o.width && !mask[y][x]
    ensures RenderOutput(true, Some(o), true, true, working, mask).value[y][x] == o.pixels[y][x]
  {
  }

  /** Compositing round trip: when the working raster is painted wherever the
      mask is set and differs from the original only there, the export is
      exactly the working raster. */
  lemma CompositeRecoversWorking(o: Original, working: Grid, mask: Stencil)
    requires Sized(o.pixels, o.width, o.height) && Sized(working, o.width, o.height) && Sized(mask, o.width, o.height)
    requires forall y, x :: 0 <= y < o.height && 0 <= x < o.width && mask[y][x] ==> working[y][x] != Clear
    requires forall y, x :: 0 <= y < o.height && 0 <= x < o.width && !mask[y][x] ==> working[y][x] == o.pixels[y][x]
    ensures RenderOutput(true, Some(o), true, true, working, mask) == Some(working)
  {
    var r := RenderOutput(true, Some(o), true, true, working, mask).value;
    forall y | 0 <= y < o.height
      ensures r[y] == working[y]
    {
      forall x | 0 <= x < o.width
        ensures r[y][x] == working[y][x]
      {
      }
    }
    assert r == working;
  }

  /** A character of `[\w\d_-]`. */
  predicate ExtChar(c: char) {
    ('a' <= c <= 'z') || ('A' <= c <= 'Z') || ('0' <= c <= '9') || c == '_' || c == '-'
  }

  /** The pattern `(\.[\w\d_-]+)$` matches `name` from index `p` to the end. */
  predicate ExtensionAt(name: string, p: nat) {
    p + 1 < |name| && name[p] == '.' && forall i :: p < i < |name| ==> ExtChar(name[i])
  }

  /** The number of trailing extension characters of `s`. */
  function TrailingRun(s: string): (k: nat)
    ensures k <= |s|
    ensures forall i :: |s| - k <= i < |s| ==> ExtChar(s[i])
    ensures k < |s| ==> !ExtChar(s[|s| - k - 1])
  {
    if |s| == 0 || !ExtChar(s[|s| - 1]) then 0 else TrailingRun(s[..|s| - 1]) + 1
  }

  /** Where the extension pattern matches, found by scanning back from the end. */
  function ExtensionStart(name: string): (r: Option<nat>)
    ensures r.Some? ==> ExtensionAt(name, r.value)
    ensures r.None? ==> forall p: nat :: !ExtensionAt(name, p)
  {
    var k := TrailingRun(name);
    if 0 < k < |name| && name[|name| - k - 1] == '.' then Some(|name| - k - 1)
    else
      assert forall p: nat :: !ExtensionAt(name, p) by {
        forall p: nat
          ensures !ExtensionAt(name, p)
        {
          if k < |name| && p < |name| - k - 1 {
            assert !ExtChar(name[|name| - k - 1]);
          }
        }
      }
      None
  }

  const CleanupSuffix: string := "_cleanup"

  /** `file.name.replace(/(\.[\w\d_-]+)$/i, '_cleanup$1')`. */
  function Rename(name: string): (r: string)
    ensures (forall p: nat :: !ExtensionAt(name, p)) ==> r == name
    ensures forall p: nat :: ExtensionAt(name, p) ==> r == name[..p] + CleanupSuffix + name[p..]
  {
    match ExtensionStart(name)
    case None => name
    case Some(p) =>
      assert forall q: nat :: ExtensionAt(name, q) ==> q == p by {
        forall q: nat | ExtensionAt(name, q)
          ensures q == p
        {
          ExtensionIsLastDot(name, p);
          ExtensionIsLastDot(name, q);
        }
      }
      name[..p] + CleanupSuffix + name[p..]
  }

  /** The matched extension starts at the last dot of the name. */
  lemma ExtensionIsLastDot(name: string, p: nat)
    requires ExtensionAt(name, p)
    ensures forall i :: p < i < |name| ==> name[i] != '.'
  {
    forall i | p < i < |name|
      ensures name[i] != '.'
    {
      assert ExtChar(name[i]);
    }
  }

  /** The rename keeps the extension: the renamed file has the same
      extension, right after the inserted suffix. */
  lemma RenameKeepsExtension(name: string, p: nat)
    requires ExtensionAt(name, p)
    ensures ExtensionAt(Rename(name), p + |CleanupSuffix|)
    ensures Rename(name)[p + |CleanupSuffix|..] == name[p..]
    ensures Rename(name)[..p] == name[..p]
  {
    var r := Rename(name);
    assert r == name[..p] + CleanupSuffix + name[p..];
    forall i | p + |CleanupSuffix| < i < |r|
      ensures ExtChar(r[i])
    {
      assert r[i] == name[i - |CleanupSuffix|];
    }
  }

  /** Only the last dot-segment receives the suffix: `a.tar.gz` becomes
      `a.tar_cleanup.gz`, whatever dots the base holds. */
  lemma RenameLastSegment(base: string, ext: string)
    requires |ext| > 0 && forall i :: 0 <= i < |ext| ==> ExtChar(ext[i])
    ensures Rename(base + "." + ext) == base + CleanupSuffix + "." + ext
  {
    var n := base + "." + ext;
    var p := |base|;
    forall i | p < i < |n|
      ensures ExtChar(n[i])
    {
      assert n[i] == ext[i - p - 1];
    }
    assert ExtensionAt(n, p);
    assert n[..p] == base && n[p..] == "." + ext;
  }

  /** A name without a dot is left as it is. */
  lemma RenameWithoutDot(name: string)
    requires '.' !in name
    ensures Rename(name) == name
  {
    forall p: nat
      ensures !ExtensionAt(name, p)
    {
      if p < |name| {
        assert name[p] in name;
      }
    }
  }

  datatype Export = Skipped | Exported(name: string, mime: string, pixels: Grid)

  const NoCanvasData: string := "could not get canvas data"

  /** `download`: nothing without a file or a context; otherwise the
      compositor's output in high-definition mode (an error when it yields
      nothing) or the working canvas as it is, saved under the renamed name
      in the file's format. */
  function Download(file: Option<File>, hasContext: bool, useHD: bool, original: Option<Original>,
                    originalLoaded: bool, working: Grid, mask: Stencil): (r: Result<Export>)
    requires useHD && original.Some? ==>
      var o := original.value;
      Sized(o.pixels, o.width, o.height) && Sized(working, o.width, o.height) && Sized(mask, o.width, o.height)
    ensures (file.None? || !hasContext) <==> r == Success(Skipped)
    ensures r.Failure? <==> file.Some? && hasContext && useHD && (original.None? || !originalLoaded)
    ensures r.Failure? ==> r.error == NoCanvasData
    ensures r.Success? && r.value.Exported? ==>
      r.value.name == Rename(file.value.name) && r.value.mime == file.value.mime
    ensures r.Success? && r.value.Exported? && !useHD ==> r.value.pixels == working
    ensures r.Success? && r.value.Exported? && useHD ==>
      r.value.pixels == RenderOutput(true, original, originalLoaded, true, working, mask).value
  {
    if file.None? || !hasContext then Success(Skipped)
    else
      var out := if useHD then RenderOutput(true, original, originalLoaded, hasContext, working, mask) else Some(working);
      if out.None? then Failure(NoCanvasData)
      else Success(Exported(Rename(file.value.name), file.value.mime, out.value))
  }

  /** The two export modes agree whenever the working raster already holds
      the cleaned pixels at full size: painted wherever the mask is set and
      equal to the original elsewhere. */
  lemma DownloadModesAgree(file: Option<File>, hasContext: bool, o: Original, working: Grid, mask: Stencil)
    requires Sized(o.pixels, o.width, o.height) && Sized(working, o.width, o.height) && Sized(mask, o.width, o.height)
    requires forall y, x :: 0 <= y < o.height && 0 <= x < o.width && mask[y][x] ==> working[y][x] != Clear
    requires forall y, x :: 0 <= y < o.height && 0 <= x < o.width && !mask[y][x] ==> working[y][x] == o.pixels[y][x]
    ensures Download(file, hasContext, true, Some(o), true, working, mask)
         == Download(file, hasContext, false, Some(o), true, working, mask)
  {
    CompositeRecoversWorking(o, working, mask);
  }
}

=== FILE: drawing.dfy ===
/** What `draw`, `drawLines` and `refreshCanvasMask` put on a canvas
    (src/context/EditorContext.tsx). Rasterisation itself is a browser call:
    a stroke is kept as the line it strokes. */
module Drawing {
  import opened Wrappers
  import opened EditorHistory

  /** `drawLines` strokes a line only if it has a point and a truthy size
      (an absent line, no points, or size 0 are skipped). */
  predicate Strokable(l: Line) {
    |l.pts| > 0 && l.size.Some? && l.size.value != 0
  }

  /** The lines `drawLines` actually strokes, in the order given. */
  function Stroked(lines: seq<Line>): (r: seq<Line>)
    ensures |r| <= |lines|
    ensures forall l :: l in r <==> l in lines && Strokable(l)
  {
    if |lines| == 0 then []
    else if Strokable(lines[0]) then [lines[0]] + Stroked(lines[1..])
    else Stroked(lines[1..])
  }

  /** Stroking a concatenation strokes each part in turn. */
  lemma {:induction false} StrokedAppend(a: seq<Line>, b: seq<Line>)
    ensures Stroked(a + b) == Stroked(a) + Stroked(b)
  {
    if |a| == 0 {
      assert a + b == b;
    } else {
      assert (a + b)[0] == a[0];
      assert (a + b)[1..] == a[1..] + b;
      StrokedAppend(a[1..], b);
    }
  }

  /** When every line is strokable, nothing is skipped. */
  lemma {:induction false} StrokedAll(lines: seq<Line>)
    requires forall i :: 0 <= i < |lines| ==> Strokable(lines[i])
    ensures Stroked(lines) == lines
  {
    if |lines| > 0 {
      StrokedAll(lines[1..]);
    }
  }

  /** The base image `draw` paints before the strokes. */
  datatype Base = LastRender(img: Image) | SourceImage

  /** What one call of `draw` paints on the working canvas. */
  datatype Painting = Painting(base: Base, strokes: seq<Line>)

  /** `lines[lines.length - 1]` as a one-element list (an absent line is skipped). */
  function LastOnly(lines: seq<Line>): (r: seq<Line>)
    ensures |r| <= 1
    ensures |lines| > 0 ==> r == [lines[|lines| - 1]]
    ensures |lines| == 0 ==> r == []
  {
    if |lines| == 0 then [] else [lines[|lines| - 1]]
  }

  /** `draw(noLine)`: nothing without a context or an image; otherwise the
      last render if it has a `src`, else the source image, then either every
      line (high-definition mode, `noLine` unset) or only the current one. */
  function Draw(hasContext: bool, hasImage: bool, h: History, useHD: bool, noLine: bool): (r: Option<Painting>)
    ensures r.None? <==> !hasContext || !hasImage
    ensures r.Some? ==>
      (r.value.base.LastRender? <==> |h.renders| > 0 && h.renders[|h.renders| - 1].src != "")
    ensures r.Some? && r.value.base.LastRender? ==> r.value.base.img == h.renders[|h.renders| - 1]
    ensures r.Some? && useHD && !noLine ==> r.value.strokes == Stroked(h.lines)
    ensures r.Some? && !(useHD && !noLine) ==> r.value.strokes == Stroked(LastOnly(h.lines))
    ensures r.Some? && !(useHD && !noLine) && |h.lines| > 0 ==>
      (r.value.strokes == [h.lines[|h.lines| - 1]] <==> Strokable(h.lines[|h.lines| - 1]))
    ensures r.Some? && !(useHD && !noLine) ==> |r.value.strokes| <= 1
  {
    if !hasContext || !hasImage then None
    else
      var base := if |h.renders| > 0 && h.renders[|h.renders| - 1].src != ""
        then LastRender(h.renders[|h.renders| - 1]) else SourceImage;
      var lines := if useHD && !noLine then h.lines else LastOnly(h.lines);
      Some(Painting(base, Stroked(lines)))
  }

  /** The mask canvas after `refreshCanvasMask`: sized like the working
      canvas, with the listed lines stroked in white. */
  datatype MaskCanvas = MaskCanvas(width: nat, height: nat, strokes: seq<Line>)

  const InvalidCanvasSize: string := "canvas has invalid size"

  /** `refreshCanvasMask`: throws on a zero-sized working canvas; otherwise
      sizes the mask to it and strokes every line of the session. */
  function RefreshCanvasMask(canvasWidth: nat, canvasHeight: nat, lines: seq<Line>): (r: Result<MaskCanvas>)
    ensures r.Failure? <==> canvasWidth == 0 || canvasHeight == 0
    ensures r.Failure? ==> r.error == InvalidCanvasSize
    ensures r.Success? ==> r.value.width == canvasWidth && r.value.height == canvasHeight
    ensures r.Success? ==> r.value.strokes == Stroked(lines)
    ensures r.Success? ==> forall l :: l in r.value.strokes <==> l in lines && Strokable(l)
  {
    if canvasWidth == 0 || canvasHeight == 0 then Failure(InvalidCanvasSize)
    else Success(MaskCanvas(canvasWidth, canvasHeight, Stroked(lines)))
  }

  /** The mask is cumulative: the mask built later in a session, after more
      lines were appended, still strokes every line of the earlier mask,
      first and in the same order. */
  lemma MaskIsCumulative(w: nat, h: nat, earlier: seq<Line>, later: seq<Line>)
    requires w > 0 && h > 0
    ensures var a := RefreshCanvasMask(w, h, earlier).value.strokes;
            var b := RefreshCanvasMask(w, h, earlier + later).value.strokes;
            |a| <= |b| && b[..|a|] == a
  {
    StrokedAppend(earlier, later);
  }
}

=== FILE: gateway.dfy ===
/** The cloud function in front of the inpainting model
    (functions/src/index.ts): the middleware chain checking the caller, then
    the handler forwarding the form upstream. Token verification and the
    upstream call are foreign; their outcomes are parameters. */
module Gateway {
  import opened Wrappers
  import opened Text
  import opened Http
  import Inpainting
  import opened EditorHistory
  import opened Drawing

  /** Outcome of `verifyIdToken` followed by `getUser`. */
  datatype IdTokenCheck = TokenRejected | TokenVerified(stripeRole: Option<string>)

  /** Outcome of `appCheck().verifyToken`, which is called without `await`:
      it may throw at once, or return a promise that later rejects. */
  datatype AppCheckCall = AppCheckAccepted | AppCheckThrows | AppCheckRejectsLater

  /** A middleware's verdict: pass on to the next one, or end the request
      with a status and the error passed to `next`. */
  datatype Stage<T> = Next(value: T) | Halt(status: int, message: string)

  datatype Endpoint = Standard | HighDefinition

  datatype Decision = Reject(status: int, message: string) | Forward(endpoint: Endpoint, refiner: Option<string>)

  const Unauthorized: string := "Unauthorized"
  const HdForbidden: string := "HD is forbidden for free users"
  const Pyramid: string := "pyramid"

  /** A string starting with the separator splits into at least two pieces,
      the second being the first piece of the remainder. */
  lemma SplitAfterPrefix(s: string, sep: string)
    requires |sep| > 0 && StartsWith(s, sep)
    ensures |Split(s, sep)| >= 2
    ensures Split(s, sep)[1] == Split(s[|sep|..], sep)[0]
  {
    assert OccursAt(s, sep, 0);
    assert FindFirst(s, sep) == Some(0);
  }

  /** The ID token read from the `authorization` header: the text after
      `Bearer ` (up to any further `Bearer `), present only when the header
      starts with `Bearer `. */
  function BearerToken(authHeader: Option<string>): (r: Option<string>)
    ensures r.Some? <==> authHeader.Some? && StartsWith(authHeader.value, Inpainting.BearerPrefix)
    ensures r.Some? ==> Free(r.value, Inpainting.BearerPrefix)
    ensures r.Some? ==> authHeader.value == Inpainting.BearerPrefix + r.value
                        || (|Inpainting.BearerPrefix| + |r.value| <= |authHeader.value|
                            && StartsWith(authHeader.value[|Inpainting.BearerPrefix| + |r.value|..], Inpainting.BearerPrefix))
  {
    if authHeader.Some? && StartsWith(authHeader.value, Inpainting.BearerPrefix) then
      SecondPiece(authHeader.value, Inpainting.BearerPrefix);
      Some(Split(authHeader.value, Inpainting.BearerPrefix)[1])
    else None
  }

  /** The second piece of a split string that starts with the separator runs
      from the end of that separator up to the next one, or to the end. */
  lemma SecondPiece(s: string, sep: string)
    requires |sep| > 0 && StartsWith(s, sep)
    ensures |Split(s, sep)| >= 2
    ensures var t := Split(s, sep)[1];
            s == sep + t || (|sep| + |t| <= |s| && StartsWith(s[|sep| + |t|..], sep))
  {
    SplitAfterPrefix(s, sep);
    var rest := s[|sep|..];
    var t := Split(rest, sep)[0];
    FirstPiece(rest, sep);
    OccurrenceAfterPrefix(s, sep, t);
  }

  /** An occurrence in the text after a prefix is an occurrence in the whole,
      shifted by the prefix's length. */
  lemma OccurrenceAfterPrefix(s: string, sep: string, t: string)
    requires StartsWith(s, sep)
    requires t == s[|sep|..] || OccursAt(s[|sep|..], sep, |t|)
    ensures s == sep + t || (|sep| + |t| <= |s| && StartsWith(s[|sep| + |t|..], sep))
  {
    var rest := s[|sep|..];
    assert s == sep + rest;
    if t != rest {
      assert s[|sep| + |t|..][..|sep|] == rest[|t|..|t| + |sep|];
    }
  }

  /** The client's `Bearer ${authToken}` is undone by the server: a token not
      itself containing `Bearer ` is read back unchanged. */
  lemma BearerRoundTrip(t: string)
    requires Free(t, Inpainting.BearerPrefix)
    ensures BearerToken(Some(Inpainting.BearerPrefix + t)) == Some(t)
  {
    var s := Inpainting.BearerPrefix + t;
    assert s[..|Inpainting.BearerPrefix|] == Inpainting.BearerPrefix;
    SplitAfterPrefix(s, Inpainting.BearerPrefix);
    assert s[|Inpainting.BearerPrefix|..] == t;
  }

  /** `checkAuthToken`: 403 without a bearer header or when verification
      fails; otherwise the caller is pro exactly when the decoded
      `stripeRole` is `pro`. */
  function CheckAuthToken(h: Headers, verify: string -> IdTokenCheck): (r: Stage<bool>)
    ensures BearerToken(Header(h, "authorization")).None? ==> r == Halt(403, Unauthorized)
    ensures r.Halt? ==> r == Halt(403, Unauthorized)
    ensures r.Next? <==> var t := BearerToken(Header(h, "authorization")); t.Some? && verify(t.value).TokenVerified?
    ensures r.Next? ==> (r.value <==> verify(BearerToken(Header(h, "authorization")).value).stripeRole == Some("pro"))
  {
    match BearerToken(Header(h, "authorization"))
    case None => Halt(403, Unauthorized)
    case Some(t) =>
      match verify(t)
      case TokenRejected => Halt(403, Unauthorized)
      case TokenVerified(role) => Next(role == Some("pro"))
  }

  /** `appCheckVerification` as written: a missing token is let through, a
      synchronous throw gives 401, and a later rejection goes unnoticed
      because the verification is not awaited. */
  function AppCheckAsWritten(h: Headers, check: string -> AppCheckCall): (r: Stage<()>)
    ensures !Truthy(Header(h, Inpainting.AppCheckHeader)) ==> r.Next?
    ensures r.Halt? <==> Truthy(Header(h, Inpainting.AppCheckHeader)) && check(Header(h, Inpainting.AppCheckHeader).value) == AppCheckThrows
    ensures r.Halt? ==> r == Halt(401, Unauthorized)
  {
    var token := Header(h, Inpainting.AppCheckHeader);
    if !Truthy(token) then Next(())
    else if check(token.value) == AppCheckThrows then Halt(401, Unauthorized)
    else Next(())
  }

  /** `appCheckVerification` as evidently intended: any failed verification
      of a supplied token gives 401. */
  function AppCheckVerification(h: Headers, check: string -> AppCheckCall): (r: Stage<()>)
    ensures !Truthy(Header(h, Inpainting.AppCheckHeader)) ==> r.Next?
    ensures r.Halt? <==> Truthy(Header(h, Inpainting.AppCheckHeader)) && check(Header(h, Inpainting.AppCheckHeader).value) != AppCheckAccepted
    ensures r.Halt? ==> r == Halt(401, Unauthorized)
  {
    var token := Header(h, Inpainting.AppCheckHeader);
    if !Truthy(token) then Next(())
    else if check(token.value) == AppCheckAccepted then Next(())
    else Halt(401, Unauthorized)
  }

  /** The as-written check lets through a token whose verification rejects
      later, which the intended check refuses. */
  lemma AppCheckRejectionEscapes(token: string, check: string -> AppCheckCall)
    requires token != "" && check(token) == AppCheckRejectsLater
    ensures AppCheckAsWritten([HeaderField(Inpainting.AppCheckHeader, token)], check).Next?
    ensures AppCheckVerification([HeaderField(Inpainting.AppCheckHeader, token)], check) == Halt(401, Unauthorized)
  {
    assert SameIgnoringCase(Inpainting.AppCheckHeader, Inpainting.AppCheckHeader);
  }

  /** `checkHDAccess`: HD is requested exactly when `X-HD` is `true`, and is
      refused with 403 to callers who are not pro. */
  function CheckHdAccess(h: Headers, isPro: bool): (r: Stage<bool>)
    ensures r.Halt? <==> Header(h, Inpainting.HdHeader) == Some("true") && !isPro
    ensures r.Halt? ==> r == Halt(403, HdForbidden)
    ensures r.Next? ==> (r.value <==> Header(h, Inpainting.HdHeader) == Some("true"))
  {
    var useHD := Header(h, Inpainting.HdHeader) == Some("true");
    if useHD && !isPro then Halt(403, HdForbidden) else Next(useHD)
  }

  /** The route: `checkAuthToken`, `appCheckVerification`, `checkHDAccess`,
      then the handler, which picks the HD endpoint and adds
      `refiner=pyramid` exactly for HD requests. The first stage that halts
      decides the response; later stages are not run. */
  function Gate(h: Headers, verify: string -> IdTokenCheck, check: string -> AppCheckCall): (d: Decision)
    ensures CheckAuthToken(h, verify).Halt? ==> d == Reject(403, Unauthorized)
    ensures CheckAuthToken(h, verify).Next? && AppCheckVerification(h, check).Halt? ==> d == Reject(401, Unauthorized)
    ensures d.Forward? <==>
      && CheckAuthToken(h, verify).Next?
      && AppCheckVerification(h, check).Next?
      && CheckHdAccess(h, CheckAuthToken(h, verify).value).Next?
    ensures d.Forward? ==> ((d.endpoint == HighDefinition) <==> Header(h, Inpainting.HdHeader) == Some("true"))
    ensures d.Forward? ==> ((d.refiner == Some(Pyramid)) <==> d.endpoint == HighDefinition)
    ensures d.Forward? ==> (d.refiner.None? <==> d.endpoint == Standard)
  {
    match CheckAuthToken(h, verify)
    case Halt(s, m) => Reject(s, m)
    case Next(isPro) =>
      match AppCheckVerification(h, check)
      case Halt(s, m) => Reject(s, m)
      case Next(_) =>
        match CheckHdAccess(h, isPro)
        case Halt(s, m) => Reject(s, m)
        case Next(useHD) =>
          if useHD then Forward(HighDefinition, Some(Pyramid)) else Forward(Standard, None)
  }

  /** What the upstream `axios.post` yields; a non-2xx status rejects. */
  datatype Upstream = UpstreamReply(status: int, data: string) | UpstreamUnreachable

  datatype Body = TextBody(text: string) | ImageBody(data: string)

  /** `axios.post` resolves: the upstream replied with a 2xx status. */
  predicate Succeeded(upstream: Upstream) {
    upstream.UpstreamReply? && 200 <= upstream.status < 300
  }

  datatype HttpResponse = HttpResponse(status: int, contentType: Option<string>, body: Body)

  /** The response sent: the rejection, or the upstream image as PNG, or
      500 when the upstream call failed. */
  function Respond(d: Decision, upstream: Upstream): (r: HttpResponse)
    ensures d.Reject? ==> r.status == d.status && r.body == TextBody(d.message)
    ensures d.Forward? && Succeeded(upstream) ==>
      r == HttpResponse(200, Some("image/png"), ImageBody(upstream.data))
    ensures d.Forward? && !Succeeded(upstream) ==>
      r.status == 500 && r.body == TextBody("Internal server error")
    ensures r.contentType.Some? <==> r.body.ImageBody?
  {
    match d
    case Reject(s, m) => HttpResponse(s, None, TextBody(m))
    case Forward(_, _) =>
      if Succeeded(upstream) then HttpResponse(200, Some("image/png"), ImageBody(upstream.data))
      else HttpResponse(500, None, TextBody("Internal server error"))
  }

  /** A file of the parsed multipart body (`request.files`): the form field
      it was sent under, its type and its bytes. */
  datatype UploadedFile = UploadedFile(fieldname: string, mimetype: string, buffer: string)

  /** `request.files.find(f => f.fieldname === name)`, as the index of the
      first file sent under `name`. */
  function FindFile(files: seq<UploadedFile>, name: string): (r: Option<nat>)
    ensures r.None? <==> forall i :: 0 <= i < |files| ==> files[i].fieldname != name
    ensures r.Some? ==> r.value < |files| && files[r.value].fieldname == name
    ensures r.Some? ==> forall j :: 0 <= j < r.value ==> files[j].fieldname != name
    decreases |files|
  {
    if |files| == 0 then None
    else if files[0].fieldname == name then Some(0)
    else
      assert forall i :: 1 <= i < |files| ==> files[i] == files[1..][i - 1];
      match FindFile(files[1..], name)
      case None => None
      case Some(k) => Some(k + 1)
  }

  /** A field of the form the handler posts upstream. */
  datatype UpstreamField =
    | FileField(name: string, data: string, contentType: string, filename: string)
    | TextField(name: string, value: string)

  /** The upstream request: the endpoint and the form it carries. */
  datatype UpstreamCall = UpstreamCall(endpoint: Endpoint, form: seq<UpstreamField>)

  /** The form the handler builds: the first image file as `image.png` and
      the first mask file as `mask.png`, each with the type it was uploaded
      with, then the refiner when there is one. Nothing when either file is
      missing, because reading `.buffer` of `undefined` throws. */
  function UpstreamForm(files: seq<UploadedFile>, refiner: Option<string>): (r: Option<seq<UpstreamField>>)
    ensures r.None? <==> FindFile(files, Inpainting.ImageField).None? || FindFile(files, Inpainting.MaskField).None?
    ensures r.Some? ==> |r.value| == 2 + (if refiner.Some? then 1 else 0)
    ensures r.Some? ==> var i := FindFile(files, Inpainting.ImageField).value;
                        r.value[0] == FileField(Inpainting.ImageField, files[i].buffer, files[i].mimetype, "image.png")
    ensures r.Some? ==> var m := FindFile(files, Inpainting.MaskField).value;
                        r.value[1] == FileField(Inpainting.MaskField, files[m].buffer, files[m].mimetype, "mask.png")
    ensures r.Some? && refiner.Some? ==> r.value[2] == TextField("refiner", refiner.value)
  {
    match (FindFile(files, Inpainting.ImageField), FindFile(files, Inpainting.MaskField))
    case (Some(i), Some(m)) =>
      var image := FileField(Inpainting.ImageField, files[i].buffer, files[i].mimetype, "image.png");
      var mask := FileField(Inpainting.MaskField, files[m].buffer, files[m].mimetype, "mask.png");
      Some([image, mask] + (if refiner.Some? then [TextField("refiner", refiner.value)] else []))
    case _ => None
  }

  /** What the route does with a request: it sends a response, or it sends
      nothing because the async handler threw, a rejection Express 4 does
      not catch. */
  datatype Handled = Sent(response: HttpResponse) | Unanswered

  /** The route's last step: a rejected request gets its rejection; an
      admitted one has its files forwarded to the chosen endpoint, and the
      upstream outcome decides the response. A body without an image or a
      mask file throws before anything is sent. */
  function Handle(d: Decision, files: seq<UploadedFile>, post: UpstreamCall -> Upstream): (r: Handled)
    ensures d.Reject? ==> r == Sent(HttpResponse(d.status, None, TextBody(d.message)))
    ensures r.Unanswered? <==> d.Forward? && UpstreamForm(files, d.refiner).None?
    ensures d.Forward? && UpstreamForm(files, d.refiner).Some? ==>
      r == Sent(Respond(d, post(UpstreamCall(d.endpoint, UpstreamForm(files, d.refiner).value))))
  {
    match d
    case Reject(s, m) => Sent(HttpResponse(s, None, TextBody(m)))
    case Forward(endpoint, refiner) =>
      match UpstreamForm(files, refiner)
      case None => Unanswered
      case Some(form) => Sent(Respond(d, post(UpstreamCall(endpoint, form))))
  }

  /** The multipart parser hands on each field of the browser's form as a
      file under the field's name; the part's type and bytes are the
      browser's encoding, given as parameters. */
  function Parsed(form: seq<Inpainting.FormField>, mime: Inpainting.Part -> string, bytes: Inpainting.Part -> string): (files: seq<UploadedFile>)
    ensures |files| == |form|
    ensures forall i :: 0 <= i < |form| ==> files[i] == UploadedFile(form[i].name, mime(form[i].part), bytes(form[i].part))
  {
    seq(|form|, i requires 0 <= i < |form| => UploadedFile(form[i].name, mime(form[i].part), bytes(form[i].part)))
  }

  /** The form `inpaint` sends always reaches upstream: the handler finds
      both files, forwards the user's image and the mask with their own
      types, and so always answers an admitted request. */
  lemma ClientFormReachesUpstream(endpointVar: Option<string>, image: File, mask: MaskCanvas,
                                  appCheckToken: Option<string>, authToken: Option<string>,
                                  mime: Inpainting.Part -> string, bytes: Inpainting.Part -> string,
                                  d: Decision, post: UpstreamCall -> Upstream)
    requires Truthy(endpointVar)
    ensures var files := Parsed(Inpainting.BuildRequest(endpointVar, image, mask, appCheckToken, authToken).value.form, mime, bytes);
            var i, m := Inpainting.ImagePart(image), Inpainting.MaskPart(mask);
            && UpstreamForm(files, None) == Some([FileField(Inpainting.ImageField, bytes(i), mime(i), "image.png"),
                                                  FileField(Inpainting.MaskField, bytes(m), mime(m), "mask.png")])
            && Handle(d, files, post).Sent?
  {
    var form := Inpainting.BuildRequest(endpointVar, image, mask, appCheckToken, authToken).value.form;
    var files := Parsed(form, mime, bytes);
    assert files[0].fieldname == Inpainting.ImageField;
    assert files[1].fieldname == Inpainting.MaskField;
    assert FindFile(files, Inpainting.ImageField) == Some(0);
    assert FindFile(files, Inpainting.MaskField) == Some(1);
    var pair := UpstreamForm(files, None).value;
    assert pair == [pair[0], pair[1]];
  }

  /** The client's authorization header reaches `verifyIdToken` as the very
      token the client was given. */
  lemma ClientTokenReachesVerification(appCheckToken: Option<string>, authToken: string, verify: string -> IdTokenCheck)
    requires authToken != "" && Free(authToken, Inpainting.BearerPrefix)
    ensures var h := Inpainting.RequestHeaders(appCheckToken, Some(authToken));
            CheckAuthToken(h, verify) == (match verify(authToken)
                                          case TokenRejected => Halt(403, Unauthorized)
                                          case TokenVerified(role) => Next(role == Some("pro")))
  {
    var h := Inpainting.RequestHeaders(appCheckToken, Some(authToken));
    AuthorizationLookup(h);
    BearerRoundTrip(authToken);
  }

  /** In headers the client builds, the server's lower-case lookup finds the
      client's `Authorization` field. */
  lemma AuthorizationLookup(h: Headers)
    requires forall i :: 0 <= i < |h| ==> h[i].name == Inpainting.AppCheckHeader || h[i].name == Inpainting.AuthorizationHeader
    ensures Header(h, "authorization") == Header(h, Inpainting.AuthorizationHeader)
  {
    AuthorizationNamesMatch();
    forall i | 0 <= i < |h|
      ensures SameIgnoringCase(h[i].name, "authorization") <==> SameIgnoringCase(h[i].name, Inpainting.AuthorizationHeader)
    {
      if h[i].name == Inpainting.AppCheckHeader {
        assert !SameIgnoringCase(Inpainting.AppCheckHeader, Inpainting.AuthorizationHeader);
      }
    }
    HeaderNamesAgree(h, "authorization", Inpainting.AuthorizationHeader);
  }

  /** `Authorization` and `authorization` name the same header. */
  lemma AuthorizationNamesMatch()
    ensures SameIgnoringCase(Inpainting.AuthorizationHeader, "authorization")
  {
    var a, b := Inpainting.AuthorizationHeader, "authorization";
    assert LowerChar(a[0]) == 'a';
    forall i | 1 <= i < |a|
      ensures LowerChar(a[i]) == LowerChar(b[i])
    {
      assert a[i] == b[i];
    }
  }

  /** The browser never asks for HD: whatever it sends is forwarded, if at
      all, to the standard endpoint without a refiner. */
  lemma ClientNeverGetsHd(appCheckToken: Option<string>, authToken: Option<string>,
                          verify: string -> IdTokenCheck, check: string -> AppCheckCall)
    ensures var d := Gate(Inpainting.RequestHeaders(appCheckToken, authToken), verify, check);
            d.Forward? ==> d == Forward(Standard, None)
  {
  }

  /** `render` calls `inpaint` without an auth token, so its requests carry
      no authorization header and the gate refuses them all. */
  lemma RenderRequestsAreRefused(appCheckToken: Option<string>, verify: string -> IdTokenCheck, check: string -> AppCheckCall)
    ensures Gate(Inpainting.RequestHeaders(appCheckToken, None), verify, check) == Reject(403, Unauthorized)
  {
    var h := Inpainting.RequestHeaders(appCheckToken, None);
    assert Header(h, "authorization").None? by {
      forall i | 0 <= i < |h|
        ensures !SameIgnoringCase(h[i].name, "authorization")
      {
        assert h[i].name == Inpainting.AppCheckHeader;
      }
    }
  }

  /** The gate admits a request to the HD endpoint exactly when the bearer
      token verifies with the `pro` role, any app-check token supplied
      passes, and `X-HD` reads `true`. */
  lemma HdForwardNeedsPro(h: Headers, verify: string -> IdTokenCheck, check: string -> AppCheckCall)
    ensures var d := Gate(h, verify, check);
            var t := BearerToken(Header(h, "authorization"));
            (d.Forward? && d.endpoint == HighDefinition) <==>
              && t.Some? && verify(t.value) == TokenVerified(Some("pro"))
              && AppCheckVerification(h, check).Next?
              && Header(h, Inpainting.HdHeader) == Some("true")
  {
  }

  /** An admitted request whose body lacks the image or the mask file gets
      no response at all. Every response sent is a success with the
      upstream image, a refusal by the gate (401 or 403), or a server error;
      the image is served only for an admitted request whose upstream call
      succeeded. */
  lemma ResponseOutcomes(h: Headers, verify: string -> IdTokenCheck, check: string -> AppCheckCall,
                         files: seq<UploadedFile>, post: UpstreamCall -> Upstream)
    ensures var d := Gate(h, verify, check);
            var r := Handle(d, files, post);
            && (r.Unanswered? <==> d.Forward? && UpstreamForm(files, d.refiner).None?)
            && (r.Sent? ==> r.response.status in {200, 401, 403, 500})
            && (r.Sent? ==> (r.response.body.ImageBody? <==>
                              d.Forward? && UpstreamForm(files, d.refiner).Some? &&
                              Succeeded(post(UpstreamCall(d.endpoint, UpstreamForm(files, d.refiner).value)))))
            && (r.Sent? ==> (r.response.status == 200 <==> r.response.body.ImageBody?))
            && (r.Sent? ==> (r.response.status == 500 <==> d.Forward? && !r.response.body.ImageBody?))
  {
  }

  /** A request carrying `X-HD: true` twice reads the header as
      `true, true`, so it is not treated as an HD request. */
  lemma RepeatedHdHeaderIsNotHd(isPro: bool)
    ensures var h := [HeaderField(Inpainting.HdHeader, "true"), HeaderField(Inpainting.HdHeader, "true")];
            && Header(h, Inpainting.HdHeader) == Some("true, true")
            && CheckHdAccess(h, isPro) == Next(false)
  {
    var h := [HeaderField(Inpainting.HdHeader, "true"), HeaderField(Inpainting.HdHeader, "true")];
    assert Lower(Inpainting.HdHeader) == "x-hd";
    assert !KeepsFirst(Inpainting.HdHeader);
    assert Separator(Inpainting.HdHeader) == ", ";
    assert SameIgnoringCase(Inpainting.HdHeader, Inpainting.HdHeader);
    assert h[1..][1..] == [];
    assert Values(h, Inpainting.HdHeader) == ["true", "true"];
    assert ["true", "true"][1..] == ["true"];
    assert Join(["true", "true"], ", ") == "true" + ", " + "true";
    assert "true" + ", " + "true" == "true, true";
    assert Header(h, Inpainting.HdHeader) == Some(Join(Values(h, Inpainting.HdHeader), Separator(Inpainting.HdHeader)));
  }
}

=== FILE: history.dfy ===
/** The editor's undo history (src/context/EditorContext.tsx): two flat
    sequences, the strokes drawn so far and the images returned by the
    inpainting service, newest last. */
module EditorHistory {
  import opened Wrappers

  /** A point in canvas coordinates. */
  datatype Point = Point(x: real, y: real)

  /** A brush stroke: the brush size stamped when the stroke started, if it
      has started, and the points captured so far. */
  datatype Line = Line(size: Option<int>, pts: seq<Point>)

  /** The line `{ pts: [] }` that every operation opens for the next stroke. */
  const EmptyLine: Line := Line(None, [])

  /** A user file: an identity, its name and its MIME type. */
  datatype File = File(id: nat, name: string, mime: string)

  /** An image element, kept opaque: an identity and its `src` URL. */
  datatype Image = Image(id: nat, src: string)

  datatype History = History(lines: seq<Line>, renders: seq<Image>)

  /** Every reachable history: there is always a current line, and at least
      one line per render plus the open one. */
  predicate Wellformed(h: History) {
    |h.lines| >= |h.renders| + 1
  }

  /** The exact balance kept by every operation except `addLine`: one line
      per render plus the open one. */
  predicate Balanced(h: History) {
    |h.lines| == |h.renders| + 1
  }

  /** The current line is blank. */
  predicate Open(h: History) {
    |h.lines| > 0 && h.lines[|h.lines| - 1] == EmptyLine
  }

  /** The history installed when the file changes (and initially). */
  function Reset(): (h: History)
    ensures Balanced(h) && Open(h) && |h.renders| == 0
  {
    History([EmptyLine], [])
  }

  /** `addLine`: opens a new blank line in the current history. */
  function AddLine(h: History): (r: History)
    ensures |r.lines| == |h.lines| + 1
    ensures r.lines[..|h.lines|] == h.lines
    ensures Open(r)
    ensures r.renders == h.renders
    ensures Wellformed(h) ==> Wellformed(r)
  {
    History(h.lines + [EmptyLine], h.renders)
  }

  /** The state update of a successful `render`: the decoded image is
      appended to the renders and a blank line is opened. */
  function Commit(h: History, img: Image): (r: History)
    ensures |r.renders| == |h.renders| + 1 && r.renders[..|h.renders|] == h.renders
    ensures r.renders[|h.renders|] == img
    ensures |r.lines| == |h.lines| + 1 && r.lines[..|h.lines|] == h.lines
    ensures Open(r)
    ensures Balanced(h) ==> Balanced(r)
    ensures Wellformed(h) ==> Wellformed(r)
  {
    History(h.lines + [EmptyLine], h.renders + [img])
  }

  /** `n` pops from the end of a sequence; popping an empty array does nothing. */
  function Pop<T>(s: seq<T>, n: nat): (r: seq<T>)
    ensures |r| == if |s| >= n then |s| - n else 0
    ensures r == s[..|r|]
  {
    if |s| >= n then s[..|s| - n] else []
  }

  /** `undo`: pops two lines and one render, then opens a blank line. */
  function Undo(h: History): (r: History)
    ensures |r.lines| == if |h.lines| >= 2 then |h.lines| - 1 else 1
    ensures r.lines[..|r.lines| - 1] == h.lines[..|r.lines| - 1]
    ensures Open(r)
    ensures |r.renders| == if |h.renders| >= 1 then |h.renders| - 1 else 0
    ensures r.renders == h.renders[..|r.renders|]
    ensures Balanced(h) ==> Balanced(r)
    ensures Wellformed(h) ==> Wellformed(r)
  {
    History(Pop(h.lines, 2) + [EmptyLine], Pop(h.renders, 1))
  }

  /** The current line (the one strokes are appended to). */
  function Current(h: History): Line
    requires |h.lines| > 0
  {
    h.lines[|h.lines| - 1]
  }

  /** Replaces the current line, leaving everything else as it was. */
  function SetCurrent(h: History, l: Line): (r: History)
    requires |h.lines| > 0
    ensures |r.lines| == |h.lines| && r.lines[..|h.lines| - 1] == h.lines[..|h.lines| - 1]
    ensures Current(r) == l
    ensures r.renders == h.renders
  {
    History(h.lines[..|h.lines| - 1] + [l], h.renders)
  }

  /** Undo on a freshly loaded file changes nothing. */
  lemma UndoFreshIsNoop()
    ensures Undo(Reset()) == Reset()
  {
  }

  /** Undo reverts one low-fidelity cycle: from a history whose current line
      is blank, drawing a stroke and rendering it, then undoing, gives back
      the history exactly. */
  lemma UndoRevertsCycle(h: History, stroke: Line, img: Image)
    requires Open(h)
    ensures Undo(Commit(SetCurrent(h, stroke), img)) == h
  {
    var c := Commit(SetCurrent(h, stroke), img);
    assert Pop(c.lines, 2) + [EmptyLine] == h.lines;
    assert Pop(c.renders, 1) == h.renders;
  }

  /** Undo right after `addLine` drops the new blank line and blanks the
      stroke before it; the render popped with them is the last one. */
  lemma UndoAfterAddLine(h: History)
    requires |h.lines| > 0
    ensures Undo(AddLine(h)).lines == h.lines[..|h.lines| - 1] + [EmptyLine]
    ensures Undo(AddLine(h)).renders == Pop(h.renders, 1)
  {
    assert Pop(h.lines + [EmptyLine], 2) == h.lines[..|h.lines| - 1];
  }
}

=== FILE: http.dfy ===
/** HTTP header lists as the client builds them and the server reads them. */
module Http {
  import opened Wrappers
  import opened Text

  datatype HeaderField = HeaderField(name: string, value: string)

  /** Header fields in the order they were set. */
  type Headers = seq<HeaderField>

  /** A header name in ASCII lower case. */
  function Lower(s: string): (r: string)
    ensures |r| == |s|
    ensures forall i :: 0 <= i < |s| ==> r[i] == LowerChar(s[i])
  {
    seq(|s|, i requires 0 <= i < |s| => LowerChar(s[i]))
  }

  /** Two names are the same up to ASCII case exactly when their lower-case
      forms are equal. */
  lemma SameIffLower(a: string, b: string)
    ensures SameIgnoringCase(a, b) <==> Lower(a) == Lower(b)
  {
    if Lower(a) == Lower(b) {
      forall i | 0 <= i < |a|
        ensures LowerChar(a[i]) == LowerChar(b[i])
      {
        assert Lower(a)[i] == Lower(b)[i];
      }
    }
  }

  /** The request headers Node.js's HTTP server keeps once: a repeated field
      with one of these names is dropped. */
  const SingleValued: set<string> := {
    "content-type", "content-length", "user-agent", "referer", "host",
    "authorization", "proxy-authorization", "if-modified-since",
    "if-unmodified-since", "from", "location", "max-forwards", "retry-after",
    "etag", "last-modified", "server", "age", "expires"
  }

  predicate KeepsFirst(name: string) {
    Lower(name) in SingleValued
  }

  /** The separator Node.js joins the values of a repeated field with:
      `; ` for cookies and `, ` for every other joined field. */
  function Separator(name: string): string {
    if Lower(name) == "cookie" then "; " else ", "
  }

  /** The values of the fields whose name matches `name` up to ASCII case,
      in the order the fields were set. */
  function Values(h: Headers, name: string): (vs: seq<string>)
    ensures |vs| <= |h|
    ensures |vs| == 0 <==> forall i :: 0 <= i < |h| ==> !SameIgnoringCase(h[i].name, name)
    ensures |vs| > 0 ==> exists i :: 0 <= i < |h| && SameIgnoringCase(h[i].name, name) && h[i].value == vs[0] &&
                                   forall j :: 0 <= j < i ==> !SameIgnoringCase(h[j].name, name)
    ensures |h| == 1 ==> vs == if SameIgnoringCase(h[0].name, name) then [h[0].value] else []
    decreases |h|
  {
    if |h| == 0 then []
    else
      var rest := Values(h[1..], name);
      assert forall i :: 1 <= i < |h| ==> h[i] == h[1..][i - 1];
      if SameIgnoringCase(h[0].name, name) then [h[0].value] + rest
      else
        assert |rest| > 0 ==> exists i :: 1 <= i < |h| && SameIgnoringCase(h[i].name, name) && h[i].value == rest[0] &&
                                          forall j :: 0 <= j < i ==> !SameIgnoringCase(h[j].name, name) by {
          if |rest| > 0 {
            var k :| 0 <= k < |h[1..]| && SameIgnoringCase(h[1..][k].name, name) && h[1..][k].value == rest[0] &&
                     forall j :: 0 <= j < k ==> !SameIgnoringCase(h[1..][j].name, name);
            assert forall j :: 1 <= j < k + 1 ==> h[j] == h[1..][j - 1];
          }
        }
        rest
  }

  /** `req.header(name)` on a Node.js server: nothing when no field matches;
      the first value for the single-valued names; otherwise every value of
      the name, joined in order. */
  function Header(h: Headers, name: string): (r: Option<string>)
    ensures r.None? <==> forall i :: 0 <= i < |h| ==> !SameIgnoringCase(h[i].name, name)
    ensures r.Some? && KeepsFirst(name) ==>
      exists i :: 0 <= i < |h| && SameIgnoringCase(h[i].name, name) && h[i].value == r.value &&
                  forall j :: 0 <= j < i ==> !SameIgnoringCase(h[j].name, name)
    ensures r.Some? && !KeepsFirst(name) ==> r.value == Join(Values(h, name), Separator(name))
  {
    Merge(Values(h, name), name)
  }

  /** The value read from the matching values of a field name. */
  function Merge(vs: seq<string>, name: string): Option<string> {
    if |vs| == 0 then None
    else if KeepsFirst(name) then Some(vs[0])
    else Some(Join(vs, Separator(name)))
  }

  /** The values of a list of fields are the values of its first part
      followed by those of the rest: together with the one-field case of
      `Values`' contract, every matching value is kept, in order. */
  lemma {:induction false} ValuesAppend(a: Headers, b: Headers, name: string)
    ensures Values(a + b, name) == Values(a, name) + Values(b, name)
    decreases |a|
  {
    if |a| == 0 {
      assert a + b == b;
    } else {
      assert (a + b)[1..] == a[1..] + b;
      ValuesAppend(a[1..], b, name);
    }
  }

  /** Appending fields to a list that already carries the name: a name kept
      once still reads the earlier first value; a joined name reads both
      parts' values with one separator between them. */
  lemma HeaderAppend(a: Headers, b: Headers, name: string)
    requires Header(a, name).Some?
    ensures KeepsFirst(name) ==> Header(a + b, name) == Header(a, name)
    ensures !KeepsFirst(name) && Header(b, name).Some? ==>
      Header(a + b, name) == Some(Header(a, name).value + Separator(name) + Header(b, name).value)
    ensures Header(b, name).None? ==> Header(a + b, name) == Header(a, name)
  {
    ValuesAppend(a, b, name);
    var va, vb := Values(a, name), Values(b, name);
    assert (va + vb)[0] == va[0];
    if |vb| > 0 && !KeepsFirst(name) {
      JoinAppend(va, vb, Separator(name));
    }
    if |vb| == 0 {
      assert va + vb == va;
    }
  }

  /** When a single field carries the name, every kind of header reads as
      that field's value. */
  lemma OnlyField(h: Headers, name: string, k: nat)
    requires k < |h| && SameIgnoringCase(h[k].name, name)
    requires forall j :: 0 <= j < |h| && j != k ==> !SameIgnoringCase(h[j].name, name)
    ensures Header(h, name) == Some(h[k].value)
  {
    OnlyFieldValues(h, name, k);
  }

  lemma {:induction false} OnlyFieldValues(h: Headers, name: string, k: nat)
    requires k < |h| && SameIgnoringCase(h[k].name, name)
    requires forall j :: 0 <= j < |h| && j != k ==> !SameIgnoringCase(h[j].name, name)
    ensures Values(h, name) == [h[k].value]
    decreases |h|
  {
    assert forall i :: 1 <= i < |h| ==> h[i] == h[1..][i - 1];
    if k == 0 {
      assert Values(h[1..], name) == [];
    } else {
      OnlyFieldValues(h[1..], name, k - 1);
    }
  }

  /** Two names that select the same fields select the same values. */
  lemma {:induction false} ValuesAgree(h: Headers, a: string, b: string)
    requires forall i :: 0 <= i < |h| ==> (SameIgnoringCase(h[i].name, a) <==> SameIgnoringCase(h[i].name, b))
    ensures Values(h, a) == Values(h, b)
    decreases |h|
  {
    if |h| > 0 {
      assert forall i :: 1 <= i < |h[1..]| + 1 ==> h[i] == h[1..][i - 1];
      ValuesAgree(h[1..], a, b);
    }
  }

  /** Two names that select the same fields read the same value, because
      they share a lower-case form whenever any field matches them. */
  lemma HeaderNamesAgree(h: Headers, a: string, b: string)
    requires forall i :: 0 <= i < |h| ==> (SameIgnoringCase(h[i].name, a) <==> SameIgnoringCase(h[i].name, b))
    ensures Header(h, a) == Header(h, b)
  {
    ValuesAgree(h, a, b);
    if |Values(h, a)| > 0 {
      var i :| 0 <= i < |h| && SameIgnoringCase(h[i].name, a);
      SameIffLower(h[i].name, a);
      SameIffLower(h[i].name, b);
      MergeAgrees(Values(h, a), a, b);
    }
  }

  /** Names with the same lower-case form read the same value. */
  lemma MergeAgrees(vs: seq<string>, a: string, b: string)
    requires Lower(a) == Lower(b)
    ensures Merge(vs, a) == Merge(vs, b)
  {
  }
}

=== FILE: inpainting.dfy ===
/** The browser's call to the inpainting service (src/adapters/inpainting.ts). */
module Inpainting {
  import opened Wrappers
  import opened Text
  import opened Http
  import opened EditorHistory
  import opened Drawing

  const AppCheckHeader: string := "X-Firebase-AppCheck"
  const AuthorizationHeader: string := "Authorization"
  const BearerPrefix: string := "Bearer "
  const HdHeader: string := "X-HD"

  /** The form field names of the image and the mask. */
  const ImageField: string := "image_file"
  const MaskField: string := "mask_file"

  /** A part of the multipart body: the user's file, or the PNG decoded from
      the mask canvas's data URL. */
  datatype Part = ImagePart(file: File) | MaskPart(mask: MaskCanvas)

  datatype FormField = FormField(name: string, part: Part)

  datatype Request = Request(endpoint: string, form: seq<FormField>, headers: Headers)

  /** The headers set from the optional tokens: each only when truthy. */
  function RequestHeaders(appCheckToken: Option<string>, authToken: Option<string>): (h: Headers)
    ensures Header(h, AppCheckHeader) == if Truthy(appCheckToken) then appCheckToken else None
    ensures Header(h, AuthorizationHeader) == if Truthy(authToken) then Some(BearerPrefix + authToken.value) else None
    ensures Header(h, HdHeader) == None
    ensures forall i :: 0 <= i < |h| ==> h[i].name == AppCheckHeader || h[i].name == AuthorizationHeader
    ensures |h| == (if Truthy(appCheckToken) then 1 else 0) + (if Truthy(authToken) then 1 else 0)
  {
    var a := if Truthy(appCheckToken) then [HeaderField(AppCheckHeader, appCheckToken.value)] else [];
    var b := if Truthy(authToken) then [HeaderField(AuthorizationHeader, BearerPrefix + authToken.value)] else [];
    AppCheckLookup(a, b, appCheckToken);
    AuthorizationFieldLookup(a, b, authToken);
    HdLookup(a + b);
    a + b
  }

  /** The app-check field, if set, is the only one its name selects. */
  lemma AppCheckLookup(a: Headers, b: Headers, appCheckToken: Option<string>)
    requires a == if Truthy(appCheckToken) then [HeaderField(AppCheckHeader, appCheckToken.value)] else []
    requires forall i :: 0 <= i < |b| ==> b[i].name == AuthorizationHeader
    ensures Header(a + b, AppCheckHeader) == if Truthy(appCheckToken) then appCheckToken else None
  {
    assert !SameIgnoringCase(AuthorizationHeader, AppCheckHeader);
    if Truthy(appCheckToken) {
      OnlyField(a + b, AppCheckHeader, 0);
    }
  }

  /** The authorization field, if set, is the only one its name selects. */
  lemma AuthorizationFieldLookup(a: Headers, b: Headers, authToken: Option<string>)
    requires forall i :: 0 <= i < |a| ==> a[i].name == AppCheckHeader
    requires |a| <= 1
    requires b == if Truthy(authToken) then [HeaderField(AuthorizationHeader, BearerPrefix + authToken.value)] else []
    ensures Header(a + b, AuthorizationHeader) == if Truthy(authToken) then Some(BearerPrefix + authToken.value) else None
  {
    assert !SameIgnoringCase(AppCheckHeader, AuthorizationHeader);
    if Truthy(authToken) {
      OnlyField(a + b, AuthorizationHeader, |a|);
    }
  }

  /** Neither field is selected by the `X-HD` name. */
  lemma HdLookup(h: Headers)
    requires forall i :: 0 <= i < |h| ==> h[i].name == AppCheckHeader || h[i].name == AuthorizationHeader
    ensures Header(h, HdHeader) == None
  {
    assert !SameIgnoringCase(AppCheckHeader, HdHeader);
    assert !SameIgnoringCase(AuthorizationHeader, HdHeader);
  }

  const MissingEndpoint: string := "missing env var REACT_APP_INPAINTING_ENDPOINT"

  /** The request `inpaint` sends: the file and the mask as form fields, to
      the configured endpoint, with the headers above. A missing endpoint
      variable throws before anything is sent. */
  function BuildRequest(endpointVar: Option<string>, image: File, mask: MaskCanvas,
                        appCheckToken: Option<string>, authToken: Option<string>): (r: Result<Request>)
    ensures r.Failure? <==> !Truthy(endpointVar)
    ensures r.Failure? ==> r.error == MissingEndpoint
    ensures r.Success? ==> r.value.endpoint == endpointVar.value
    ensures r.Success? ==> r.value.form == [FormField(ImageField, ImagePart(image)), FormField(MaskField, MaskPart(mask))]
    ensures r.Success? ==> r.value.headers == RequestHeaders(appCheckToken, authToken)
  {
    var form := [FormField(ImageField, ImagePart(image)), FormField(MaskField, MaskPart(mask))];
    if !Truthy(endpointVar) then Failure(MissingEndpoint)
    else Success(Request(endpointVar.value, form, RequestHeaders(appCheckToken, authToken)))
  }

  /** What `fetch` yields: a response (whatever its status) or a rejection. */
  datatype Transport = Response(status: int, body: string) | NetworkError(message: string)

  /** `URL.createObjectURL(blob)`: a `blob:` URL naming the body. */
  function ObjectUrl(body: string): (url: string)
    ensures |url| > 0
  {
    "blob:" + body
  }

  /** `inpaint`: the object URL of the response body, or the error thrown. */
  function Inpaint(endpointVar: Option<string>, image: File, mask: MaskCanvas,
                   appCheckToken: Option<string>, authToken: Option<string>, transport: Transport): (r: Result<string>)
    ensures !Truthy(endpointVar) ==> r == Failure(MissingEndpoint)
    ensures Truthy(endpointVar) && transport.NetworkError? ==> r == Failure(transport.message)
    ensures Truthy(endpointVar) && transport.Response? ==> r.Success? && r.value == ObjectUrl(transport.body)
  {
    match BuildRequest(endpointVar, image, mask, appCheckToken, authToken)
    case Failure(e) => Failure(e)
    case Success(_) =>
      match transport
      case NetworkError(m) => Failure(m)
      case Response(_, body) => Success(ObjectUrl(body))
  }
}

=== FILE: render.dfy ===
/** `render` (src/context/EditorContext.tsx): rebuild the mask, call the
    inpainting service, decode the result and commit it to the history.
    Firebase, the network and image decoding are foreign; their outcomes are
    parameters. */
module Orchestrator {
  import opened Wrappers
  import opened EditorHistory
  import opened Drawing
  import opened Inpainting

  /** Everything `render` learns from the outside world. A missing canvas
      context is given as width 0: the mask refresh reads an absent
      context's size as falsy, exactly as it reads a zero size. */
  datatype RenderEnv = RenderEnv(
    canvasWidth: nat,              // the working canvas (0 when there is no context)
    canvasHeight: nat,
    firebaseReady: bool,
    file: Option<File>,
    appCheckToken: Result<string>, // `firebase.getAppCheckToken()`
    endpointVar: Option<string>,   // REACT_APP_INPAINTING_ENDPOINT
    transport: Transport,          // what `fetch` yields
    decoded: Result<nat>)          // `loadImage`: the new image, or the decode error

  /** `render` either commits a new image, or catches an error (shown with
      `alert`) leaving the history as it was, or throws before its `try`. */
  datatype RenderOutcome = Rendered(history: History) | Alerted(history: History, message: string) | Thrown(message: string)

  const NoFirebase: string := "Firebase is not initialized"
  const NoFile: string := "No file"
  const EmptyResponse: string := "empty response"

  /** All of `render`'s calls to the outside world succeed. */
  predicate Succeeds(env: RenderEnv) {
    && env.canvasWidth > 0 && env.canvasHeight > 0
    && env.firebaseReady && env.file.Some? && env.appCheckToken.Success?
    && Truthy(env.endpointVar) && env.transport.Response? && env.decoded.Success?
  }

  function Render(h: History, env: RenderEnv): (r: RenderOutcome)
    ensures r.Thrown? <==> env.canvasWidth == 0 || env.canvasHeight == 0
    ensures r.Thrown? ==> r.message == InvalidCanvasSize
    ensures r.Alerted? ==> r.history == h
    ensures r.Rendered? <==> Succeeds(env)
    ensures r.Rendered? ==>
      r.history == Commit(h, Image(env.decoded.value, ObjectUrl(env.transport.body)))
    ensures r.Alerted? && !env.firebaseReady ==> r.message == NoFirebase
    ensures r.Alerted? && env.firebaseReady && env.file.None? ==> r.message == NoFile
  {
    match RefreshCanvasMask(env.canvasWidth, env.canvasHeight, h.lines)
    case Failure(e) => Thrown(e)
    case Success(mask) =>
      if !env.firebaseReady then Alerted(h, NoFirebase)
      else if env.file.None? then Alerted(h, NoFile)
      else
        match env.appCheckToken
        case Failure(e) => Alerted(h, e)
        case Success(token) =>
          match Inpaint(env.endpointVar, env.file.value, mask, Some(token), None, env.transport)
          case Failure(e) => Alerted(h, e)
          case Success(url) =>
            if url == "" then Alerted(h, EmptyResponse)
            else
              match env.decoded
              case Failure(e) => Alerted(h, e)
              case Success(id) => Rendered(Commit(h, Image(id, url)))
  }

  /** After a successful render the next `draw` paints the new image, since
      its `src` (an object URL) is never empty. */
  lemma DrawShowsNewRender(h: History, env: RenderEnv, useHD: bool, noLine: bool)
    requires Render(h, env).Rendered?
    ensures var h' := Render(h, env).history;
            Draw(true, true, h', useHD, noLine).value.base == LastRender(h'.renders[|h'.renders| - 1])
  {
  }

  /** The request `render` makes carries the app-check token it obtained and
      never an authorization header. */
  lemma RenderSendsNoAuthorization(h: History, env: RenderEnv)
    requires env.canvasWidth > 0 && env.canvasHeight > 0 && env.file.Some? && env.appCheckToken.Success? && Truthy(env.endpointVar)
    ensures var mask := RefreshCanvasMask(env.canvasWidth, env.canvasHeight, h.lines).value;
            BuildRequest(env.endpointVar, env.file.value, mask, Some(env.appCheckToken.value), None).value.headers
            == RequestHeaders(Some(env.appCheckToken.value), None)
  {
  }
}

=== FILE: session.dfy ===
/** Whole editing sessions: every event the editor reacts to, replayed on
    the history, and the invariants that hold of every reachable history. */
module Session {
  import opened Wrappers
  import opened EditorHistory
  import opened Orchestrator
  import opened Strokes

  /** The events that change the history (src/context/EditorContext.tsx and
      src/EditorUI.tsx). */
  datatype Event =
    | FileChanged
    | PointerPressed(imageSrc: string, brushSize: int, p: Point)
    | PointerDragged(p: Point)
    | PointerReleased(imageSrc: string, useHD: bool, env: RenderEnv)
    | CleanupClicked(env: RenderEnv)
    | KeyPressed(e: KeyEvent)

  /** The events after which the one-line-per-render balance still holds:
      all but a release in high-definition mode (which calls `addLine`). */
  predicate KeepsBalance(e: Event) {
    !(e.PointerReleased? && e.useHD)
  }

  function Apply(h: History, e: Event): (r: History)
    requires Wellformed(h)
    ensures Wellformed(r)
    ensures Balanced(h) && KeepsBalance(e) ==> Balanced(r)
  {
    match e
    case FileChanged => Reset()
    case PointerPressed(src, size, p) => PointerDown(h, src, size, p)
    case PointerDragged(p) => Drag(h, p)
    case PointerReleased(src, useHD, env) => PointerUp(h, src, useHD, env).history
    case CleanupClicked(env) =>
      (match Render(h, env)
       case Rendered(h') => h'
       case Alerted(h', _) => h'
       case Thrown(_) => h)
    case KeyPressed(k) => OnKeyDown(h, k)
  }

  /** The history after a sequence of events, in order. */
  function Replay(h: History, events: seq<Event>): (r: History)
    requires Wellformed(h)
    ensures Wellformed(r) && |r.lines| > 0
    ensures Balanced(h) && (forall i :: 0 <= i < |events| ==> KeepsBalance(events[i])) ==> Balanced(r)
    decreases |events|
  {
    if |events| == 0 then h else Replay(Apply(h, events[0]), events[1..])
  }

  /** Every history reachable from a freshly loaded file has a current line
      and at least one line per render; without high-definition releases it
      has exactly one line per render plus the open one. */
  lemma Reachable(events: seq<Event>)
    ensures Wellformed(Replay(Reset(), events))
    ensures (forall i :: 0 <= i < |events| ==> KeepsBalance(events[i])) ==> Balanced(Replay(Reset(), events))
  {
  }

  /** One low-definition cycle: a stroke on the open line, then a successful render. */
  function Cycle(h: History, stroke: Line, img: Image): (r: History)
    requires |h.lines| > 0
    ensures |r.lines| > 0
  {
    Commit(SetCurrent(h, stroke), img)
  }

  /** One cycle on a history of strokes and images followed by a blank line
      adds the stroke and the image: after N rendered strokes from `Reset()`
      the history is `History(strokes + [EmptyLine], imgs)`. */
  lemma CycleExtends(strokes: seq<Line>, imgs: seq<Image>, stroke: Line, img: Image)
    ensures Cycle(History(strokes + [EmptyLine], imgs), stroke, img) == History(strokes + [stroke] + [EmptyLine], imgs + [img])
  {
    var prev := History(strokes + [EmptyLine], imgs);
    assert prev.lines[..|prev.lines| - 1] == strokes;
  }

  /** `k` undos in a row. */
  function Undos(h: History, k: nat): History
    decreases k
  {
    if k == 0 then h else Undos(Undo(h), k - 1)
  }

  /** N undos after N rendered strokes give back the freshly loaded history. */
  lemma {:induction false} UndoUnwindsCycles(strokes: seq<Line>, imgs: seq<Image>)
    requires |strokes| == |imgs|
    ensures Undos(History(strokes + [EmptyLine], imgs), |strokes|) == Reset()
  {
    if |strokes| > 0 {
      var n := |strokes|;
      var s', i' := strokes[..n - 1], imgs[..n - 1];
      assert s' + [strokes[n - 1]] == strokes;
      assert i' + [imgs[n - 1]] == imgs;
      CycleExtends(s', i', strokes[n - 1], imgs[n - 1]);
      UndoRevertsCycle(History(s' + [EmptyLine], i'), strokes[n - 1], imgs[n - 1]);
      UndoUnwindsCycles(s', i');
    }
  }

  /** In high-definition mode each finished stroke takes the place of the
      open line and opens a new one: K strokes add exactly K lines, in
      order, and no render. */
  function HdStrokes(h: History, strokes: seq<Line>): (r: History)
    requires |h.lines| > 0
    ensures |r.lines| == |h.lines| + |strokes|
    ensures r.renders == h.renders
    ensures r.lines[..|h.lines| - 1] == h.lines[..|h.lines| - 1]
    ensures |strokes| > 0 ==> r.lines == h.lines[..|h.lines| - 1] + strokes + [EmptyLine]
    ensures |strokes| == 0 ==> r == h
    ensures |strokes| > 0 ==> Open(r)
    decreases |strokes|
  {
    if |strokes| == 0 then h
    else
      var prev := HdStrokes(h, strokes[..|strokes| - 1]);
      HdStrokeStep(h, strokes, prev);
      AddLine(SetCurrent(prev, strokes[|strokes| - 1]))
  }

  /** The last of K strokes takes the open line left by the first K - 1 and
      opens a new one. */
  lemma HdStrokeStep(h: History, strokes: seq<Line>, prev: History)
    requires |h.lines| > 0 && |strokes| > 0
    requires |strokes| == 1 ==> prev == h
    requires |strokes| > 1 ==> prev.lines == h.lines[..|h.lines| - 1] + strokes[..|strokes| - 1] + [EmptyLine]
    requires prev.renders == h.renders
    ensures var r := AddLine(SetCurrent(prev, strokes[|strokes| - 1]));
            && r.lines == h.lines[..|h.lines| - 1] + strokes + [EmptyLine]
            && r.renders == h.renders
  {
    var n := |strokes|;
    var kept := h.lines[..|h.lines| - 1] + strokes[..n - 1];
    assert prev.lines[..|prev.lines| - 1] == kept by {
      if n > 1 {
        assert prev.lines == kept + [EmptyLine];
      }
    }
    assert strokes[..n - 1] + [strokes[n - 1]] == strokes;
  }

  /** One gesture: the brush size and first point of a press, then the
      points of the drags that follow it. */
  datatype Gesture = Gesture(size: int, start: Point, moves: seq<Point>)

  /** The line a gesture draws. */
  function GestureLine(g: Gesture): Line {
    Line(Some(g.size), [g.start] + g.moves)
  }

  function Drags(moves: seq<Point>): (r: seq<Event>)
    ensures |r| == |moves|
    ensures forall i :: 0 <= i < |r| ==> r[i] == PointerDragged(moves[i])
  {
    seq(|moves|, i requires 0 <= i < |moves| => PointerDragged(moves[i]))
  }

  /** The events of one gesture in high-definition mode: press, drags, release. */
  function GestureEvents(src: string, g: Gesture, env: RenderEnv): seq<Event> {
    [PointerPressed(src, g.size, g.start)] + Drags(g.moves) + [PointerReleased(src, true, env)]
  }

  /** The events of a sequence of gestures, one after the other. */
  function SessionEvents(src: string, gs: seq<Gesture>, env: RenderEnv): seq<Event>
    decreases |gs|
  {
    if |gs| == 0 then [] else SessionEvents(src, gs[..|gs| - 1], env) + GestureEvents(src, gs[|gs| - 1], env)
  }

  /** Replaying two event sequences one after the other. */
  lemma {:induction false} ReplayAppend(h: History, a: seq<Event>, b: seq<Event>)
    requires Wellformed(h)
    ensures Replay(h, a + b) == Replay(Replay(h, a), b)
    decreases |a|
  {
    if |a| > 0 {
      assert (a + b)[0] == a[0];
      assert (a + b)[1..] == a[1..] + b;
      ReplayAppend(Apply(h, a[0]), a[1..], b);
    } else {
      assert a + b == b;
    }
  }

  /** Replaying an event followed by more events. */
  lemma ReplayCons(h: History, e: Event, rest: seq<Event>)
    requires Wellformed(h)
    ensures Replay(h, [e] + rest) == Replay(Apply(h, e), rest)
  {
    assert ([e] + rest)[1..] == rest;
  }

  /** Replacing the current line twice keeps only the second replacement. */
  lemma SetCurrentTwice(h: History, l1: Line, l2: Line)
    requires |h.lines| > 0
    ensures SetCurrent(SetCurrent(h, l1), l2) == SetCurrent(h, l2)
  {
  }

  /** The drags applied one after the other. */
  function DragAll(h: History, moves: seq<Point>): (r: History)
    requires |h.lines| > 0
    ensures |r.lines| == |h.lines|
    decreases |moves|
  {
    if |moves| == 0 then h else DragAll(Drag(h, moves[0]), moves[1..])
  }

  /** Replaying drag events applies the drags. */
  lemma {:induction false} DragsReplay(h: History, moves: seq<Point>)
    requires Wellformed(h)
    ensures Replay(h, Drags(moves)) == DragAll(h, moves)
    decreases |moves|
  {
    if |moves| > 0 {
      assert Drags(moves) == [PointerDragged(moves[0])] + Drags(moves[1..]);
      ReplayCons(h, PointerDragged(moves[0]), Drags(moves[1..]));
      DragsReplay(Drag(h, moves[0]), moves[1..]);
    }
  }

  /** Drags extend the current line by their points and touch nothing else. */
  lemma {:induction false} DragAllExtends(h: History, moves: seq<Point>)
    requires |h.lines| > 0
    ensures DragAll(h, moves) == SetCurrent(h, Line(Current(h).size, Current(h).pts + moves))
    decreases |moves|
  {
    var l := Line(Current(h).size, Current(h).pts + moves);
    if |moves| == 0 {
      assert l == Current(h);
      assert h.lines[..|h.lines| - 1] + [Current(h)] == h.lines;
    } else {
      var h' := Drag(h, moves[0]);
      DragAllExtends(h', moves[1..]);
      assert Current(h').pts + moves[1..] == Current(h).pts + moves;
      SetCurrentTwice(h, Current(h'), l);
    }
  }

  /** Replayed drags extend the current line by their points and touch
      nothing else. */
  lemma DragsExtendCurrent(h: History, moves: seq<Point>)
    requires Wellformed(h)
    ensures Replay(h, Drags(moves)) == SetCurrent(h, Line(Current(h).size, Current(h).pts + moves))
  {
    DragsReplay(h, moves);
    DragAllExtends(h, moves);
  }

  /** One high-definition gesture on an open history, with an image and a
      file present, is exactly one stroke of `HdStrokes`. */
  lemma GestureReplay(h: History, src: string, g: Gesture, env: RenderEnv)
    requires Wellformed(h) && Open(h) && src != "" && env.file.Some?
    ensures Replay(h, GestureEvents(src, g, env)) == HdStrokes(h, [GestureLine(g)])
  {
    var press := PointerPressed(src, g.size, g.start);
    var release := PointerReleased(src, true, env);
    var line := GestureLine(g);
    assert GestureEvents(src, g, env) == [press] + (Drags(g.moves) + [release]);
    ReplayCons(h, press, Drags(g.moves) + [release]);
    var h1 := SetCurrent(h, Line(Some(g.size), [g.start]));
    PressStartsLine(h, src, g.size, g.start);
    ReplayAppend(h1, Drags(g.moves), [release]);
    DragsExtendCurrent(h1, g.moves);
    assert Line(Current(h1).size, Current(h1).pts + g.moves) == line;
    SetCurrentTwice(h, Current(h1), line);
    var h2 := SetCurrent(h, line);
    ReleaseOpensLine(h2, src, env);
    assert [line][..0] == [];
    HdStrokeStep(h, [line], h);
  }

  /** A press with an image on an open history starts a line at its point. */
  lemma PressStartsLine(h: History, src: string, size: int, p: Point)
    requires Wellformed(h) && Open(h) && src != ""
    ensures Apply(h, PointerPressed(src, size, p)) == SetCurrent(h, Line(Some(size), [p]))
  {
    assert Current(h).pts + [p] == [p];
  }

  /** A release in high-definition mode, with an image and a file, opens a line. */
  lemma ReleaseOpensLine(h: History, src: string, env: RenderEnv)
    requires Wellformed(h) && src != "" && env.file.Some?
    ensures Replay(h, [PointerReleased(src, true, env)]) == AddLine(h)
  {
    ReplayCons(h, PointerReleased(src, true, env), []);
  }

  /** The lines a sequence of gestures draws, in order. */
  function GestureLines(gs: seq<Gesture>): (r: seq<Line>)
    ensures |r| == |gs|
    ensures forall i :: 0 <= i < |gs| ==> r[i] == GestureLine(gs[i])
    decreases |gs|
  {
    if |gs| == 0 then [] else GestureLines(gs[..|gs| - 1]) + [GestureLine(gs[|gs| - 1])]
  }

  /** `HdStrokes` on one more stroke is one more stroke on `HdStrokes`. */
  lemma HdStrokesSnoc(h: History, front: seq<Line>, l: Line)
    requires |h.lines| > 0
    ensures HdStrokes(h, front + [l]) == AddLine(SetCurrent(HdStrokes(h, front), l))
  {
    assert (front + [l])[..|front|] == front;
  }

  /** A whole high-definition session on an open history, with an image and
      a file present: the lines are the gestures' lines, in order, and no
      render is made. */
  lemma {:induction false} HdSessionReplay(h: History, src: string, gs: seq<Gesture>, env: RenderEnv)
    requires Wellformed(h) && Open(h) && src != "" && env.file.Some?
    ensures Replay(h, SessionEvents(src, gs, env)) == HdStrokes(h, GestureLines(gs))
    decreases |gs|
  {
    if |gs| > 0 {
      var n := |gs|;
      var front, g := gs[..n - 1], gs[n - 1];
      var line := GestureLine(g);
      HdSessionReplay(h, src, front, env);
      var mid := HdStrokes(h, GestureLines(front));
      ReplayAppend(h, SessionEvents(src, front, env), GestureEvents(src, g, env));
      GestureReplay(mid, src, g, env);
      HdStrokesSnoc(h, GestureLines(front), line);
    }
  }
}

=== FILE: strokes.dfy ===
/** Stroke capture and dispatch in the editing surface (src/EditorUI.tsx):
    the pointer handlers as transitions on the editor history, and the
    Cmd/Ctrl+Z shortcut. */
module Strokes {
  import opened Wrappers
  import opened EditorHistory
  import opened Orchestrator

  /** `viewportRef.current?.state.scale || 1`: a missing or zero scale reads as 1. */
  function EffectiveScale(viewportScale: Option<real>): (s: real)
    ensures s != 0.0
    ensures viewportScale.Some? && viewportScale.value != 0.0 ==> s == viewportScale.value
  {
    if viewportScale.Some? && viewportScale.value != 0.0 then viewportScale.value else 1.0
  }

  /** A touch position in canvas coordinates: the offset from the canvas's
      bounding box, divided by the zoom scale. */
  function TouchPoint(clientX: real, clientY: real, rectX: real, rectY: real, scale: real): (p: Point)
    requires scale != 0.0
    ensures p.x * scale == clientX - rectX && p.y * scale == clientY - rectY
  {
    Point((clientX - rectX) / scale, (clientY - rectY) / scale)
  }

  /** `onMouseDown` / `onPointerStart`: ignored while the image has no `src`;
      otherwise stamps the brush size on the current line and appends the
      first point to it. */
  function PointerDown(h: History, imageSrc: string, brushSize: int, p: Point): (r: History)
    requires |h.lines| > 0
    ensures imageSrc == "" ==> r == h
    ensures imageSrc != "" ==>
      && |r.lines| == |h.lines|
      && r.lines[..|h.lines| - 1] == h.lines[..|h.lines| - 1]
      && Current(r) == Line(Some(brushSize), Current(h).pts + [p])
    ensures r.renders == h.renders
  {
    if imageSrc == "" then h
    else SetCurrent(h, Line(Some(brushSize), Current(h).pts + [p]))
  }

  /** `onMouseDrag` / `onTouchMove` (through `onPaint`): appends a point to
      the current line and to nothing else. */
  function Drag(h: History, p: Point): (r: History)
    requires |h.lines| > 0
    ensures |r.lines| == |h.lines|
    ensures r.lines[..|h.lines| - 1] == h.lines[..|h.lines| - 1]
    ensures Current(r).size == Current(h).size
    ensures Current(r).pts == Current(h).pts + [p]
    ensures r.renders == h.renders
  {
    SetCurrent(h, Line(Current(h).size, Current(h).pts + [p]))
  }

  /** The effect of `onPointerUp`: the history afterwards, the values the
      loading flag went through, and the error shown or thrown, if any. */
  datatype PointerUpEffect = PointerUpEffect(history: History, loading: seq<bool>, alerted: Option<string>, thrown: Option<string>)

  /** `onPointerUp`: nothing without an image `src` or a file; in
      low-definition mode, `render` between raising and lowering the loading
      flag (an error thrown by `render` leaves the flag raised); in
      high-definition mode, `addLine`. */
  function PointerUp(h: History, imageSrc: string, useHD: bool, env: RenderEnv): (r: PointerUpEffect)
    ensures imageSrc == "" || env.file.None? ==> r == PointerUpEffect(h, [], None, None)
    ensures imageSrc != "" && env.file.Some? && useHD ==> r == PointerUpEffect(AddLine(h), [], None, None)
    ensures imageSrc != "" && env.file.Some? && !useHD ==>
      && |r.loading| >= 1 && r.loading[0]
      && (r.loading[|r.loading| - 1] <==> r.thrown.Some?)
      && (Render(h, env).Rendered? ==> r.history == Render(h, env).history && r.alerted.None?)
      && (Render(h, env).Alerted? ==> r.history == Render(h, env).history && r.alerted == Some(Render(h, env).message))
      && (Render(h, env).Thrown? ==> r.history == h)
      && (r.thrown.Some? <==> Render(h, env).Thrown?)
      && (r.thrown.Some? ==> r.thrown == Some(Render(h, env).message) && r.alerted.None?)
  {
    if imageSrc == "" || env.file.None? then PointerUpEffect(h, [], None, None)
    else if useHD then PointerUpEffect(AddLine(h), [], None, None)
    else
      match Render(h, env)
      case Rendered(h') => PointerUpEffect(h', [true, false], None, None)
      case Alerted(h', m) => PointerUpEffect(h', [true, false], Some(m), None)
      case Thrown(m) => PointerUpEffect(h, [true], None, Some(m))
  }

  datatype KeyEvent = KeyEvent(key: string, metaKey: bool, ctrlKey: bool)

  predicate IsCmdZ(e: KeyEvent) {
    (e.metaKey || e.ctrlKey) && e.key == "z"
  }

  /** The keydown handler's decision: undo on Cmd/Ctrl+Z unless there is a
      single edit and its line list is empty. */
  predicate CallsUndo(editCount: nat, currentLineCount: nat, e: KeyEvent) {
    !(editCount < 2 && currentLineCount == 0) && IsCmdZ(e)
  }

  /** The keydown handler on the flat history: the edits are the renders
      plus the open batch, and the current edit's lines are the lines. */
  function OnKeyDown(h: History, e: KeyEvent): (r: History)
    ensures !IsCmdZ(e) ==> r == h
    ensures IsCmdZ(e) && |h.lines| > 0 ==> r == Undo(h)
  {
    if CallsUndo(|h.renders| + 1, |h.lines|, e) then Undo(h) else h
  }

  /** On a freshly loaded file the shortcut changes nothing. */
  lemma CmdZOnFreshFile(e: KeyEvent)
    ensures OnKeyDown(Reset(), e) == Reset()
  {
    UndoFreshIsNoop();
  }
}

=== FILE: subscriptions.dfy ===
/** The maintenance script that revokes stale pro claims
    (scripts/check-subscriptions/fix-all.js): it reads an ignore list and a
    Stripe customer export, tallies the subscription statuses, and clears the
    pro claim of every customer whose subscription is no longer active.
    Files, CSV decoding and the Firebase Admin calls are foreign: their
    contents and outcomes are parameters. */
module Subscriptions {
  import opened Wrappers
  import opened Text

  // ---------------------------------------------------------------------
  // The ignore list

  /** The user ids of `ignore.csv`: the first comma-separated field of every
      line after the header line. */
  function ParseIgnore(content: string): (ids: seq<string>)
    ensures |ids| == |Split(content, "\n")| - 1
    ensures forall i :: 0 <= i < |ids| ==> ',' !in ids[i]
    ensures forall i :: 0 <= i < |ids| ==> StartsWith(Split(content, "\n")[i + 1], ids[i])
    ensures forall i :: 0 <= i < |ids| ==>
      ids[i] == Split(content, "\n")[i + 1] || OccursAt(Split(content, "\n")[i + 1], ",", |ids[i]|)
  {
    var lines := Split(content, "\n")[1..];
    var ids := seq(|lines|, i requires 0 <= i < |lines| => Split(lines[i], ",")[0]);
    assert forall i :: 0 <= i < |ids| ==>
      && ',' !in ids[i] && StartsWith(lines[i], ids[i])
      && (ids[i] == lines[i] || OccursAt(lines[i], ",", |ids[i]|)) by {
      forall i | 0 <= i < |ids|
        ensures ',' !in ids[i] && StartsWith(lines[i], ids[i])
        ensures ids[i] == lines[i] || OccursAt(lines[i], ",", |ids[i]|)
      {
        NoCharInFree(ids[i], ',');
        FirstPieceIsPrefix(lines[i], ",");
        FirstPiece(lines[i], ",");
      }
    }
    ids
  }

  lemma NoCharInFree(p: string, c: char)
    requires Free(p, [c])
    ensures c !in p
  {
    forall i | 0 <= i < |p|
      ensures p[i] != c
    {
      assert !OccursAt(p, [c], i);
      assert p[i..i + 1] == [p[i]];
    }
  }

  lemma FirstPieceIsPrefix(s: string, sep: string)
    requires |sep| > 0
    ensures StartsWith(s, Split(s, sep)[0])
  {
    match FindFirst(s, sep)
    case None =>
    case Some(i) =>
  }

  /** The first field of `p + "," + rest` is `p` when `p` has no comma. */
  lemma FirstField(p: string, rest: string)
    requires ',' !in p
    ensures Split(p + "," + rest, ",")[0] == p
  {
    var s := p + "," + rest;
    assert OccursAt(s, ",", |p|) by {
      assert s[|p|..|p| + 1] == ",";
    }
    forall j: nat | j < |p|
      ensures !OccursAt(s, ",", j)
    {
      assert s[j..j + 1] == [p[j]];
    }
    assert FindFirst(s, ",") == Some(|p|);
    assert s[..|p|] == p;
  }

  /** Reading back an ignore file written as a header and one `id,rest` line
      per ignored user gives exactly the ids, in order. */
  lemma ParseIgnoreRoundTrip(header: string, ids: seq<string>, rests: seq<string>)
    requires |ids| == |rests|
    requires '\n' !in header
    requires forall i :: 0 <= i < |ids| ==> ',' !in ids[i] && '\n' !in ids[i] && '\n' !in rests[i]
    ensures ParseIgnore(Join([header] + seq(|ids|, i requires 0 <= i < |ids| => ids[i] + "," + rests[i]), "\n")) == ids
  {
    var rows := seq(|ids|, i requires 0 <= i < |ids| => ids[i] + "," + rests[i]);
    var pieces := [header] + rows;
    forall k | 0 <= k < |pieces|
      ensures '\n' !in pieces[k]
    {
      if k > 0 {
        assert pieces[k] == ids[k - 1] + "," + rests[k - 1];
      }
    }
    SplitJoin(pieces, '\n');
    var parsed := ParseIgnore(Join(pieces, "\n"));
    forall i | 0 <= i < |ids|
      ensures parsed[i] == ids[i]
    {
      FirstField(ids[i], rests[i]);
    }
  }

  // ---------------------------------------------------------------------
  // The command line

  /** The script's only argument, the Stripe export, is required: without
      it the script exits with code 1 before reading any row. */
  function ExportArgument(args: seq<string>): (r: Result<string>)
    ensures r.Failure? <==> |args| == 0 || args[0] == ""
    ensures r.Success? ==> r.value == args[0]
  {
    if |args| == 0 || args[0] == "" then Failure("Missing Stripe customer file") else Success(args[0])
  }

  // ---------------------------------------------------------------------
  // Reading the export

  /** A CSV row of the export, column name to value. */
  type CsvRow = map<string, string>

  const UidColumn: string := "firebaseUID (metadata)"
  const StatusColumn: string := "Status"
  const EmailColumn: string := "Email"

  /** `row[column]`: `undefined` when the column is missing. */
  function Column(row: CsvRow, column: string): Option<string> {
    if column in row then Some(row[column]) else None
  }

  /** A customer queued for the check. */
  datatype Pending = Pending(userId: Option<string>, email: Option<string>, status: Option<string>)

  function ToPending(row: CsvRow): Pending {
    Pending(Column(row, UidColumn), Column(row, EmailColumn), Column(row, StatusColumn))
  }

  /** How JavaScript prints a possibly undefined string (as a property key
      or in a template literal). */
  function Show(s: Option<string>): string {
    if s.Some? then s.value else "undefined"
  }

  function StatusKey(row: CsvRow): string {
    Show(Column(row, StatusColumn))
  }

  /** The number of rows with a given status. */
  function Count(rows: seq<CsvRow>, key: string): nat
    decreases |rows|
  {
    if |rows| == 0 then 0
    else Count(rows[..|rows| - 1], key) + (if StatusKey(rows[|rows| - 1]) == key then 1 else 0)
  }

  /** The `data` handler over the whole export: `stats` counts the rows of
      each status, and every row is queued in `proUsers`, in file order. */
  method Ingest(rows: seq<CsvRow>) returns (stats: map<string, nat>, queue: seq<Pending>)
    ensures |queue| == |rows|
    ensures forall i :: 0 <= i < |rows| ==> queue[i] == ToPending(rows[i])
    ensures forall k :: k in stats <==> Count(rows, k) > 0
    ensures forall k :: k in stats ==> stats[k] == Count(rows, k)
  {
    stats := map[];
    queue := [];
    var i := 0;
    while i < |rows|
      invariant 0 <= i <= |rows|
      invariant |queue| == i
      invariant forall j :: 0 <= j < i ==> queue[j] == ToPending(rows[j])
      invariant forall k :: k in stats <==> Count(rows[..i], k) > 0
      invariant forall k :: k in stats ==> stats[k] == Count(rows[..i], k)
    {
      var key := StatusKey(rows[i]);
      if key !in stats {
        stats := stats[key := 1];
      } else {
        stats := stats[key := stats[key] + 1];
      }
      queue := queue + [ToPending(rows[i])];
      assert rows[..i + 1][..i] == rows[..i];
      i := i + 1;
    }
    assert rows[..|rows|] == rows;
  }

  /** The distinct statuses of the export, each once, in order of first
      appearance. Only the set matters to the tally; the order in which
      JavaScript lists `stats`' keys is not modelled. */
  function Statuses(rows: seq<CsvRow>): (keys: seq<string>)
    ensures forall k :: k in keys <==> Count(rows, k) > 0
    ensures forall i, j :: 0 <= i < j < |keys| ==> keys[i] != keys[j]
    decreases |rows|
  {
    if |rows| == 0 then []
    else
      var prev := Statuses(rows[..|rows| - 1]);
      var key := StatusKey(rows[|rows| - 1]);
      if key in prev then prev else prev + [key]
  }

  /** The counts of the given statuses, added up. */
  function Total(rows: seq<CsvRow>, keys: seq<string>): nat
    decreases |keys|
  {
    if |keys| == 0 then 0 else Count(rows, keys[0]) + Total(rows, keys[1..])
  }

  lemma {:induction false} TotalAppend(rows: seq<CsvRow>, a: seq<string>, b: seq<string>)
    ensures Total(rows, a + b) == Total(rows, a) + Total(rows, b)
    decreases |a|
  {
    if |a| == 0 {
      assert a + b == b;
    } else {
      assert (a + b)[1..] == a[1..] + b;
      TotalAppend(rows, a[1..], b);
    }
  }

  /** One more row adds one to the total of any list of distinct statuses
      that contains its status, and nothing otherwise. */
  lemma {:induction false} TotalSnoc(rows: seq<CsvRow>, row: CsvRow, keys: seq<string>)
    requires forall i, j :: 0 <= i < j < |keys| ==> keys[i] != keys[j]
    ensures Total(rows + [row], keys) == Total(rows, keys) + (if StatusKey(row) in keys then 1 else 0)
    decreases |keys|
  {
    var rows' := rows + [row];
    assert rows'[..|rows'| - 1] == rows;
    if |keys| > 0 {
      TotalSnoc(rows, row, keys[1..]);
      assert StatusKey(row) in keys <==> StatusKey(row) == keys[0] || StatusKey(row) in keys[1..];
    }
  }

  /** The tally accounts for every row: the counts of all statuses add up to
      the number of rows. */
  lemma {:induction false} TallyAddsUp(rows: seq<CsvRow>)
    ensures Total(rows, Statuses(rows)) == |rows|
    decreases |rows|
  {
    if |rows| > 0 {
      var prev := rows[..|rows| - 1];
      var row := rows[|rows| - 1];
      assert prev + [row] == rows;
      TallyAddsUp(prev);
      TotalSnoc(prev, row, Statuses(prev));
      if StatusKey(row) !in Statuses(prev) {
        TotalAppend(rows, Statuses(prev), [StatusKey(row)]);
        assert Count(prev, StatusKey(row)) == 0;
      }
    }
  }

  // ---------------------------------------------------------------------
  // Revoking claims

  /** A user's custom claims. */
  datatype Claims = Claims(stripeRole: Option<string>)

  /** An account `getUser` finds: its custom claims, if any, and whether
      `setCustomUserClaims` succeeds for it or rejects. */
  datatype Account = Account(claims: Option<Claims>, acceptsClaims: bool)

  /** The accounts `getUser` finds, by user id. */
  type Accounts = map<string, Account>

  /** Whose pro claim is revoked: a pro claim in Firebase while the Stripe
      status is neither `active` nor `trialing`. */
  predicate Revokes(claims: Option<Claims>, status: Option<string>) {
    && claims.Some? && claims.value.stripeRole == Some("pro")
    && status != Some("active") && status != Some("trialing")
  }

  /** Promotional users listed in the ignore file are skipped. */
  predicate Ignored(u: Pending, ignore: seq<string>) {
    u.userId.Some? && u.userId.value in ignore
  }

  /** The line appended to the result file for a revoked user. */
  function ReportLine(u: Pending): string {
    Show(u.userId) + ", " + Show(u.email) + ", " + Show(u.status) + "\n"
  }

  /** The state of the `end` handler's loop: the accounts, the lines written,
      the counter `i`, and whether an exception stopped the loop. */
  datatype Reconciliation = Reconciliation(accounts: Accounts, report: seq<string>, counter: nat, aborted: bool)

  /** Whether the loop finds the customer: a user id `getUser` knows. */
  predicate Known(u: Pending, accounts: Accounts) {
    u.userId.Some? && u.userId.value in accounts
  }

  /** One iteration for one queued customer: ignored users are skipped
      without counting; a user `getUser` cannot find stops the loop;
      otherwise a revoked user's line is appended to the report and the
      claim cleared, and the user is counted. When `setCustomUserClaims`
      rejects, the loop stops after the line was written, with the claim
      kept and the user not counted. */
  function Step(st: Reconciliation, u: Pending, ignore: seq<string>): (r: Reconciliation)
    requires !st.aborted
    ensures Ignored(u, ignore) ==> r == st
    ensures !Ignored(u, ignore) && !r.aborted ==> r.counter == st.counter + 1
    ensures r.aborted ==> r.counter == st.counter && r.accounts == st.accounts
    ensures r.aborted && !Known(u, st.accounts) ==> r.report == st.report
    ensures r.aborted && Known(u, st.accounts) ==> r.report == st.report + [ReportLine(u)]
    ensures r.accounts.Keys == st.accounts.Keys
    ensures r.aborted <==>
      && !Ignored(u, ignore)
      && (!Known(u, st.accounts) ||
          (Revokes(st.accounts[u.userId.value].claims, u.status) && !st.accounts[u.userId.value].acceptsClaims))
    ensures !r.aborted && !Ignored(u, ignore) ==>
      Known(u, st.accounts) &&
      var id := u.userId.value;
      if Revokes(st.accounts[id].claims, u.status)
      then r.report == st.report + [ReportLine(u)] && r.accounts == st.accounts[id := st.accounts[id].(claims := Some(Claims(None)))]
      else r.report == st.report && r.accounts == st.accounts
  {
    if Ignored(u, ignore) then st
    else if !Known(u, st.accounts) then st.(aborted := true)
    else
      var id := u.userId.value;
      if !Revokes(st.accounts[id].claims, u.status) then st.(counter := st.counter + 1)
      else if !st.accounts[id].acceptsClaims then st.(report := st.report + [ReportLine(u)], aborted := true)
      else
        Reconciliation(st.accounts[id := st.accounts[id].(claims := Some(Claims(None)))], st.report + [ReportLine(u)], st.counter + 1, false)
  }

  /** The loop over the queue, stopping at the first exception. */
  function Process(st: Reconciliation, queue: seq<Pending>, ignore: seq<string>): (r: Reconciliation)
    ensures !r.aborted ==> |r.report| - |st.report| <= r.counter - st.counter
    ensures |r.report| - |st.report| <= r.counter - st.counter + 1
    ensures r.counter >= st.counter
    ensures r.accounts.Keys == st.accounts.Keys
    ensures st.aborted ==> r == st
    decreases |queue|
  {
    if st.aborted || |queue| == 0 then st
    else Process(Step(st, queue[0], ignore), queue[1..], ignore)
  }

  /** The customers the loop visits without stopping: every non-ignored
      user id is known, every revoked one accepts the claim update, and no
      id is queued twice. */
  predicate Clean(queue: seq<Pending>, ignore: seq<string>, accounts: Accounts) {
    && (forall i :: 0 <= i < |queue| && !Ignored(queue[i], ignore) ==>
          && queue[i].userId.Some? && queue[i].userId.value in accounts
          && (Revokes(accounts[queue[i].userId.value].claims, queue[i].status) ==> accounts[queue[i].userId.value].acceptsClaims))
    && (forall i, j :: 0 <= i < j < |queue| && queue[i].userId.Some? ==> queue[i].userId != queue[j].userId)
  }

  /** Reference: the report lines of the revoked customers, in queue order. */
  function Expected(queue: seq<Pending>, ignore: seq<string>, accounts: Accounts): seq<string>
    decreases |queue|
  {
    if |queue| == 0 then [] else Own(queue[0], ignore, accounts) + Expected(queue[1..], ignore, accounts)
  }

  /** Reference: the report line of one customer, if revoked. */
  function Own(u: Pending, ignore: seq<string>, accounts: Accounts): seq<string> {
    if !Ignored(u, ignore) && u.userId.Some? && u.userId.value in accounts
       && Revokes(accounts[u.userId.value].claims, u.status) then [ReportLine(u)] else []
  }

  /** Reference: the number of non-ignored customers. */
  function Considered(queue: seq<Pending>, ignore: seq<string>): nat
    decreases |queue|
  {
    if |queue| == 0 then 0
    else (if Ignored(queue[0], ignore) then 0 else 1) + Considered(queue[1..], ignore)
  }

  /** The live accounts `cur` still hold, for every queued customer that
      exists, the claims that customer had in `accounts`. */
  predicate Agrees(queue: seq<Pending>, cur: Accounts, accounts: Accounts) {
    forall i :: 0 <= i < |queue| && queue[i].userId.Some? && queue[i].userId.value in accounts ==>
      queue[i].userId.value in cur && cur[queue[i].userId.value] == accounts[queue[i].userId.value]
  }

  /** On a clean queue the loop completes, reports exactly the non-ignored
      customers with a pro claim whose status is neither active nor trialing,
      and counts exactly the non-ignored customers. */
  lemma {:induction false} ProcessMatchesReference(st: Reconciliation, queue: seq<Pending>, ignore: seq<string>, accounts: Accounts)
    requires !st.aborted && Clean(queue, ignore, accounts) && Agrees(queue, st.accounts, accounts)
    ensures var r := Process(st, queue, ignore);
            && !r.aborted
            && r.report == st.report + Expected(queue, ignore, accounts)
            && r.counter == st.counter + Considered(queue, ignore)
    decreases |queue|
  {
    if |queue| > 0 {
      var st' := Step(st, queue[0], ignore);
      Advance(st, queue, ignore, accounts);
      ProcessMatchesReference(st', queue[1..], ignore, accounts);
    }
  }

  /** One turn of the loop on a clean, agreeing queue: the rest of the queue
      is clean and agreeing, and the report and counter stay on track. */
  lemma Advance(st: Reconciliation, queue: seq<Pending>, ignore: seq<string>, accounts: Accounts)
    requires |queue| > 0 && !st.aborted && Clean(queue, ignore, accounts) && Agrees(queue, st.accounts, accounts)
    ensures var st' := Step(st, queue[0], ignore);
            && !st'.aborted && Clean(queue[1..], ignore, accounts) && Agrees(queue[1..], st'.accounts, accounts)
            && Process(st, queue, ignore) == Process(st', queue[1..], ignore)
            && st.report + Expected(queue, ignore, accounts) == st'.report + Expected(queue[1..], ignore, accounts)
            && st.counter + Considered(queue, ignore) == st'.counter + Considered(queue[1..], ignore)
  {
    HeadStep(st, queue, ignore, accounts);
    AgreesAfterStep(st, queue, ignore, accounts);
    CleanTail(queue, ignore, accounts);
    Unfold(st, queue, ignore, accounts);
    Regroup(st.report, Own(queue[0], ignore, accounts), Expected(queue[1..], ignore, accounts));
  }

  /** Concatenation regrouped. */
  lemma Regroup(a: seq<string>, b: seq<string>, c: seq<string>)
    ensures a + (b + c) == (a + b) + c
  {
  }

  /** One turn of the loop and of the reference definitions. */
  lemma Unfold(st: Reconciliation, queue: seq<Pending>, ignore: seq<string>, accounts: Accounts)
    requires |queue| > 0 && !st.aborted
    ensures Process(st, queue, ignore) == Process(Step(st, queue[0], ignore), queue[1..], ignore)
    ensures Expected(queue, ignore, accounts) == Own(queue[0], ignore, accounts) + Expected(queue[1..], ignore, accounts)
    ensures Considered(queue, ignore) == (if Ignored(queue[0], ignore) then 0 else 1) + Considered(queue[1..], ignore)
  {
  }

  /** The first step on a clean, agreeing queue matches the reference. */
  lemma HeadStep(st: Reconciliation, queue: seq<Pending>, ignore: seq<string>, accounts: Accounts)
    requires |queue| > 0 && !st.aborted && Clean(queue, ignore, accounts) && Agrees(queue, st.accounts, accounts)
    ensures var r := Step(st, queue[0], ignore);
            && !r.aborted
            && r.report == st.report + Own(queue[0], ignore, accounts)
            && r.counter == st.counter + (if Ignored(queue[0], ignore) then 0 else 1)
  {
    StepMatchesReference(st, queue[0], ignore, accounts);
  }

  /** After the first step the live accounts still agree on the rest. */
  lemma AgreesAfterStep(st: Reconciliation, queue: seq<Pending>, ignore: seq<string>, accounts: Accounts)
    requires |queue| > 0 && !st.aborted && !Step(st, queue[0], ignore).aborted
    requires Clean(queue, ignore, accounts) && Agrees(queue, st.accounts, accounts)
    ensures Agrees(queue[1..], Step(st, queue[0], ignore).accounts, accounts)
  {
    var rest := queue[1..];
    CleanTail(queue, ignore, accounts);
    forall i | 0 <= i < |rest| && rest[i].userId.Some? && rest[i].userId.value in accounts
      ensures rest[i].userId.value in st.accounts && st.accounts[rest[i].userId.value] == accounts[rest[i].userId.value]
    {
      assert rest[i] == queue[i + 1];
    }
    KnownAfterStep(st, queue[0], rest, ignore, accounts);
  }

  /** One step of the loop on a known (or ignored) customer agrees with the
      reference. */
  lemma StepMatchesReference(st: Reconciliation, u: Pending, ignore: seq<string>, accounts: Accounts)
    requires !st.aborted
    requires !Ignored(u, ignore) ==>
               && u.userId.Some? && u.userId.value in accounts
               && (Revokes(accounts[u.userId.value].claims, u.status) ==> accounts[u.userId.value].acceptsClaims)
    requires u.userId.Some? && u.userId.value in accounts ==>
               u.userId.value in st.accounts && st.accounts[u.userId.value] == accounts[u.userId.value]
    ensures var r := Step(st, u, ignore);
            && !r.aborted
            && r.report == st.report + Own(u, ignore, accounts)
            && r.counter == st.counter + (if Ignored(u, ignore) then 0 else 1)
  {
  }

  /** A step changes at most the account of the customer it visits. */
  lemma KnownAfterStep(st: Reconciliation, u: Pending, rest: seq<Pending>, ignore: seq<string>, accounts: Accounts)
    requires !st.aborted && !Step(st, u, ignore).aborted
    requires forall i :: 0 <= i < |rest| && rest[i].userId.Some? ==> rest[i].userId != u.userId
    requires forall i :: 0 <= i < |rest| && rest[i].userId.Some? && rest[i].userId.value in accounts ==>
               rest[i].userId.value in st.accounts && st.accounts[rest[i].userId.value] == accounts[rest[i].userId.value]
    ensures var st' := Step(st, u, ignore);
            forall i :: 0 <= i < |rest| && rest[i].userId.Some? && rest[i].userId.value in accounts ==>
              rest[i].userId.value in st'.accounts && st'.accounts[rest[i].userId.value] == accounts[rest[i].userId.value]
  {
  }

  /** The customers after the first of a clean queue form a clean queue, and
      none of them shares the first one's id. */
  lemma CleanTail(queue: seq<Pending>, ignore: seq<string>, accounts: Accounts)
    requires |queue| > 0 && Clean(queue, ignore, accounts)
    ensures Clean(queue[1..], ignore, accounts)
    ensures queue[0].userId.Some? ==> forall i :: 0 <= i < |queue[1..]| && queue[1..][i].userId.Some? ==> queue[1..][i].userId != queue[0].userId
  {
    forall i, j | 0 <= i < j < |queue[1..]| && queue[1..][i].userId.Some?
      ensures queue[1..][i].userId != queue[1..][j].userId
    {
      assert queue[1..][i] == queue[i + 1] && queue[1..][j] == queue[j + 1];
    }
    forall i | 0 <= i < |queue[1..]| && queue[1..][i].userId.Some? && queue[0].userId.Some?
      ensures queue[1..][i].userId != queue[0].userId
    {
      assert queue[1..][i] == queue[i + 1];
    }
  }

  /** A customer queued twice: the first visit clears the pro claim, so the
      second visit finds nothing to revoke and the customer is reported once,
      whereas the reference, which reads the claims as they were before the
      loop, lists the customer twice. */
  lemma RepeatedCustomerReportedOnce(id: string)
    ensures var u := Pending(Some(id), Some("a@b.c"), Some("canceled"));
            var accounts: Accounts := map[id := Account(Some(Claims(Some("pro"))), true)];
            var st := Reconciliation(accounts, [], 0, false);
            && Process(st, [u, u], []).report == [ReportLine(u)]
            && Process(st, [u, u], []).counter == 2
            && Expected([u, u], [], accounts) == [ReportLine(u), ReportLine(u)]
  {
    var u := Pending(Some(id), Some("a@b.c"), Some("canceled"));
    var accounts: Accounts := map[id := Account(Some(Claims(Some("pro"))), true)];
    var st := Reconciliation(accounts, [], 0, false);
    assert Revokes(accounts[id].claims, u.status);
    var st1 := Step(st, u, []);
    assert st1.accounts[id] == Account(Some(Claims(None)), true);
    assert [u, u][1..] == [u];
    assert Process(st, [u, u], []) == Process(st1, [u], []);
    assert Own(u, [], accounts) == [ReportLine(u)];
    assert Expected([u], [], accounts) == [ReportLine(u)] + Expected([u][1..], [], accounts);
    assert Expected([u, u], [], accounts) == [ReportLine(u)] + Expected([u], [], accounts);
  }

  /** When `setCustomUserClaims` rejects for a revoked customer, the loop
      stops there: the line is already in the report, the claim is kept, the
      customer is not counted, and the rest of the queue is not visited. */
  lemma ClaimRefusalStopsLoop(st: Reconciliation, u: Pending, rest: seq<Pending>, ignore: seq<string>)
    requires !st.aborted && !Ignored(u, ignore) && Known(u, st.accounts)
    requires Revokes(st.accounts[u.userId.value].claims, u.status) && !st.accounts[u.userId.value].acceptsClaims
    ensures Process(st, [u] + rest, ignore) == Reconciliation(st.accounts, st.report + [ReportLine(u)], st.counter, true)
  {
    assert ([u] + rest)[0] == u;
  }

  const NotAFunction: string := "TypeError: ignore.has is not a function"

  /** The loop as written calls `ignore.has` on the ignore list, an array,
      which has no such method: the first iteration throws before any user
      is looked at. */
  function ProcessAsWritten(st: Reconciliation, queue: seq<Pending>): (r: Reconciliation)
    ensures r.report == st.report && r.accounts == st.accounts && r.counter == st.counter
    ensures r.aborted <==> st.aborted || |queue| > 0
  {
    if st.aborted || |queue| == 0 then st else st.(aborted := true)
  }

  /** A customer whose pro claim is stale: the corrected loop revokes it, the
      loop as written revokes nothing. */
  lemma AsWrittenRevokesNothing(id: string)
    ensures var u := Pending(Some(id), Some("a@b.c"), Some("canceled"));
            var accounts: Accounts := map[id := Account(Some(Claims(Some("pro"))), true)];
            var st := Reconciliation(accounts, [], 0, false);
            && ProcessAsWritten(st, [u]).report == []
            && Process(st, [u], []).report == [ReportLine(u)]
            && Process(st, [u], []).accounts[id].claims == Some(Claims(None))
  {
    var u := Pending(Some(id), Some("a@b.c"), Some("canceled"));
    var accounts: Accounts := map[id := Account(Some(Claims(Some("pro"))), true)];
    var st := Reconciliation(accounts, [], 0, false);
    assert Revokes(accounts[id].claims, u.status);
  }

  // ---------------------------------------------------------------------
  // The whole script

  datatype ScriptOutcome =
    | ExitedWithCode(code: int)
    | Finished(stats: map<string, nat>, queue: seq<Pending>, result: Reconciliation)

  /** The script: parse the ignore list, require the export argument, read
      every row, then reconcile the queued customers. */
  method Script(args: seq<string>, ignoreContent: string, rows: seq<CsvRow>, accounts: Accounts) returns (out: ScriptOutcome)
    ensures out.ExitedWithCode? <==> |args| == 0 || args[0] == ""
    ensures out.ExitedWithCode? ==> out.code == 1
    ensures out.Finished? ==> |out.queue| == |rows| && forall k :: k in out.stats ==> out.stats[k] == Count(rows, k)
    ensures out.Finished? ==> forall i :: 0 <= i < |rows| ==> out.queue[i] == ToPending(rows[i])
    ensures out.Finished? ==> forall k :: k in out.stats <==> Count(rows, k) > 0
    ensures out.Finished? ==> out.result == Process(Reconciliation(accounts, [], 0, false), out.queue, ParseIgnore(ignoreContent))
    ensures out.Finished? && Clean(out.queue, ParseIgnore(ignoreContent), accounts) ==>
      && !out.result.aborted
      && out.result.report == Expected(out.queue, ParseIgnore(ignoreContent), accounts)
      && out.result.counter == Considered(out.queue, ParseIgnore(ignoreContent))
  {
    var ignore := ParseIgnore(ignoreContent);
    if ExportArgument(args).Failure? {
      return ExitedWithCode(1);
    }
    var stats, queue := Ingest(rows);
    var start := Reconciliation(accounts, [], 0, false);
    if Clean(queue, ignore, accounts) {
      ProcessMatchesReference(start, queue, ignore, accounts);
      assert start.report + Expected(queue, ignore, accounts) == Expected(queue, ignore, accounts);
    }
    out := Finished(stats, queue, Process(start, queue, ignore));
  }
}

=== FILE: text.dfy ===
/** The JavaScript string operations the program relies on, over `seq<char>`. */
module Text {
  import opened Wrappers

  /** `sep` occurs in `s` starting at index `i`. */
  predicate OccursAt(s: string, sep: string, i: nat) {
    i + |sep| <= |s| && s[i..i + |sep|] == sep
  }

  /** `sep` occurs nowhere in `s`. */
  predicate Free(s: string, sep: string) {
    forall i: nat :: i <= |s| ==> !OccursAt(s, sep, i)
  }

  /** `s.startsWith(p)`. */
  predicate StartsWith(s: string, p: string) {
    |p| <= |s| && s[..|p|] == p
  }

  lemma OccursShift(s: string, sep: string, j: nat)
    requires 1 <= j <= |s|
    ensures OccursAt(s, sep, j) <==> OccursAt(s[1..], sep, j - 1)
  {
    if j + |sep| <= |s| {
      var a, b := s[j..j + |sep|], s[1..][j - 1..j - 1 + |sep|];
      assert |a| == |b|;
      forall k | 0 <= k < |a|
        ensures a[k] == b[k]
      {
        assert a[k] == s[j + k];
        assert b[k] == s[1..][j - 1 + k];
      }
      assert a == b;
    }
  }

  /** `s.indexOf(sep)`: the first index at which `sep` occurs, if any. */
  function FindFirst(s: string, sep: string): (r: Option<nat>)
    requires |sep| > 0
    ensures r.Some? ==> OccursAt(s, sep, r.value)
    ensures r.Some? ==> forall j: nat :: j < r.value ==> !OccursAt(s, sep, j)
    ensures r.None? <==> Free(s, sep)
    decreases |s|
  {
    if |s| < |sep| then None
    else if s[..|sep|] == sep then Some(0)
    else
      match FindFirst(s[1..], sep)
      case None =>
        assert Free(s, sep) by {
          forall j: nat | j <= |s| ensures !OccursAt(s, sep, j) {
            if j >= 1 { OccursShift(s, sep, j); }
          }
        }
        None
      case Some(k) =>
        assert forall j: nat :: j < k + 1 ==> !OccursAt(s, sep, j) by {
          forall j: nat | j < k + 1 ensures !OccursAt(s, sep, j) {
            if j >= 1 { OccursShift(s, sep, j); }
          }
        }
        OccursShift(s, sep, k + 1);
        Some(k + 1)
  }

  /** `s.split(sep)` for a non-empty separator: the pieces between the
      non-overlapping occurrences of `sep`, scanning from the left. */
  function Split(s: string, sep: string): (r: seq<string>)
    requires |sep| > 0
    ensures |r| >= 1
    ensures forall k :: 0 <= k < |r| ==> Free(r[k], sep)
    decreases |s|
  {
    match FindFirst(s, sep)
    case None => [s]
    case Some(i) =>
      assert Free(s[..i], sep) by {
        forall j: nat | j <= i
          ensures !OccursAt(s[..i], sep, j)
        {
          if j + |sep| <= i {
            assert s[..i][j..j + |sep|] == s[j..j + |sep|];
            assert !OccursAt(s, sep, j);
          }
        }
      }
      [s[..i]] + Split(s[i + |sep|..], sep)
  }

  /** The first piece of a split is the whole string, or it is followed by
      the separator. */
  lemma FirstPiece(s: string, sep: string)
    requires |sep| > 0
    ensures var p := Split(s, sep)[0]; p == s || OccursAt(s, sep, |p|)
  {
    match FindFirst(s, sep)
    case None =>
    case Some(i) =>
      assert Split(s, sep)[0] == s[..i];
  }

  /** `pieces.join(sep)`. */
  function Join(pieces: seq<string>, sep: string): string {
    if |pieces| == 0 then ""
    else if |pieces| == 1 then pieces[0]
    else pieces[0] + sep + Join(pieces[1..], sep)
  }

  /** Joining two non-empty lists puts one separator between their joins. */
  lemma {:induction false} JoinAppend(p: seq<string>, q: seq<string>, sep: string)
    requires |p| > 0 && |q| > 0
    ensures Join(p + q, sep) == Join(p, sep) + sep + Join(q, sep)
    decreases |p|
  {
    if |p| == 1 {
      assert (p + q)[1..] == q;
    } else {
      assert (p + q)[1..] == p[1..] + q;
      JoinAppend(p[1..], q, sep);
    }
  }

  /** Splitting and re-joining on the same separator gives back the string. */
  lemma {:induction false} JoinSplit(s: string, sep: string)
    requires |sep| > 0
    ensures Join(Split(s, sep), sep) == s
    decreases |s|
  {
    match FindFirst(s, sep)
    case None =>
    case Some(i) =>
      var rest := s[i + |sep|..];
      var tail := Split(rest, sep);
      var pieces := Split(s, sep);
      assert pieces == [s[..i]] + tail;
      assert |pieces| >= 2 && pieces[0] == s[..i] && pieces[1..] == tail;
      assert Join(pieces, sep) == s[..i] + sep + Join(tail, sep);
      JoinSplit(rest, sep);
      assert s[i..i + |sep|] == sep;
      assert s == s[..i] + sep + rest;
  }

  /** The text before the first occurrence of a single-character separator. */
  lemma FreeOfChar(p: string, c: char)
    requires c !in p
    ensures Free(p, [c])
  {
    forall i: nat | i <= |p|
      ensures !OccursAt(p, [c], i)
    {
      if i < |p| {
        assert p[i..i + 1] == [p[i]];
      }
    }
  }

  /** For a one-character separator the split is the inverse of the join,
      provided no piece contains the separator. */
  lemma {:induction false} SplitJoin(pieces: seq<string>, c: char)
    requires |pieces| >= 1
    requires forall k :: 0 <= k < |pieces| ==> c !in pieces[k]
    ensures Split(Join(pieces, [c]), [c]) == pieces
  {
    var s := Join(pieces, [c]);
    FreeOfChar(pieces[0], c);
    if |pieces| == 1 {
      assert FindFirst(s, [c]).None?;
    } else {
      var p := pieces[0];
      var rest := Join(pieces[1..], [c]);
      assert s == p + [c] + rest;
      assert OccursAt(s, [c], |p|) by {
        assert s[|p|..|p| + 1] == [c];
      }
      forall j: nat | j < |p|
        ensures !OccursAt(s, [c], j)
      {
        assert s[j..j + 1] == [p[j]];
      }
      assert FindFirst(s, [c]) == Some(|p|);
      assert s[..|p|] == p;
      assert s[|p| + 1..] == rest;
      SplitJoin(pieces[1..], c);
    }
  }

  /** ASCII lower-casing, as applied to HTTP header names. */
  function LowerChar(c: char): char {
    if 'A' <= c <= 'Z' then (c as int + 32) as char else c
  }

  /** Equality of two header names up to ASCII case. */
  predicate SameIgnoringCase(a: string, b: string) {
    |a| == |b| && forall i :: 0 <= i < |a| ==> LowerChar(a[i]) == LowerChar(b[i])
  }
}

=== FILE: viewport.dfy ===
/** The zoom arithmetic of the editing surface (src/EditorUI.tsx), over the reals. */
module Viewport {
  import opened Wrappers

  /** Height reserved for the toolbar below the image. */
  const ToolbarSize: real := 180.0

  function Min(a: real, b: real): real {
    if a <= b then a else b
  }

  /** The smallest zoom: the image fits the window above the toolbar, but is
      never enlarged past its natural size. */
  function MinScale(windowWidth: real, windowHeight: real, naturalWidth: real, naturalHeight: real): (s: real)
    requires naturalWidth > 0.0 && naturalHeight > 0.0
    ensures var rW := windowWidth / naturalWidth;
            var rH := (windowHeight - ToolbarSize) / naturalHeight;
            && s <= 1.0 && s <= rW && s <= rH
            && (s == 1.0 || s == rW || s == rH)
    ensures s == 1.0 <==> windowWidth >= naturalWidth && windowHeight - ToolbarSize >= naturalHeight
  {
    var rW := windowWidth / naturalWidth;
    var rH := (windowHeight - ToolbarSize) / naturalHeight;
    if rW < 1.0 || rH < 1.0 then Min(rW, rH) else 1.0
  }

  datatype Transform = Transform(offsetX: real, offsetY: real, scale: real)

  /** `resetZoom`: without a (non-zero) minimum scale or an image nothing
      happens; without a viewport it throws; otherwise the image is shown at
      the minimum scale, centred in the window. */
  function ResetZoom(minScale: Option<real>, imageSize: Option<(real, real)>, windowWidth: real, windowHeight: real,
                     hasViewport: bool): (r: Result<Option<Transform>>)
    ensures (minScale.None? || minScale.value == 0.0 || imageSize.None?) <==> r == Success(None)
    ensures r.Failure? <==> minScale.Some? && minScale.value != 0.0 && imageSize.Some? && !hasViewport
    ensures r.Success? && r.value.Some? ==>
      var t := r.value.value;
      && t.scale == minScale.value
      && 2.0 * t.offsetX + imageSize.value.0 * t.scale == windowWidth
      && 2.0 * t.offsetY + imageSize.value.1 * t.scale == windowHeight
  {
    if minScale.None? || minScale.value == 0.0 || imageSize.None? then Success(None)
    else if !hasViewport then Failure("no viewport")
    else
      var (w, h) := imageSize.value;
      var s := minScale.value;
      Success(Some(Transform((windowWidth - w * s) / 2.0, (windowHeight - h * s) / 2.0, s)))
  }
}

=== FILE: wrappers.dfy ===
/** Failure-compatible value wrappers shared by every module of the model. */
module Wrappers {

  /** An optional value: JavaScript's `undefined` is `None`. */
  datatype Option<+T> = None | Some(value: T)

  /** The outcome of an operation that may throw: `Failure` carries the error message. */
  datatype Result<+T> = Success(value: T) | Failure(error: string)

  /** JavaScript truthiness of an optional string: `undefined` and `''` are falsy. */
  predicate Truthy(s: Option<string>) {
    s.Some? && s.value != ""
  }
}
